=== FILE: README.md ===
# Section binding page order, in Dafny

A model of the section-binding tool's page reordering. The tool takes a
document of `n` pages and a signature size `s`. It pads the page list
`1..n` with blanks up to the next multiple of `s`. Each signature is then
laid out sheet by sheet: sheet `i` takes the slot `s - 1 - i` of the
signature, the `i`-th from its end counting from zero (the back page), and
then the slot `i`, the `i`-th from its start (the front page). The blanks are dropped at the end. Printed double-sided and
folded, each signature then reads in order.

The model covers:

- both copies of `calculate_signature_order`: the validated one in the
  package and the unvalidated one in the standalone script;
- the statistics and page copy of `process_pdf`;
- the size checks and default output name of the script's `main`;
- the size suggestions, the argument checks and the default output name of
  the command-line front end.

Modules:

- `SignatureOrder` (`signature_order.dfy`): the algorithm for any positive size.
- `Folding` and `Counting`: generic facts about the sheet folding and about
  counting occurrences in sequences.
- `OrderProperties` and `Layout`: what the order is. It is a permutation of
  `1..n` for even sizes. Sheet `i` of full signature `k` carries `k·s+s−i`
  and then `k·s+i+1`. A final partial signature reads in order exactly when
  it is at most half full.
- `WorkedCases`: the concrete orders the repository's tests expect, derived
  from the general lemmas.
- `Core`, `Standalone`, `Paths`, `Cli`: the three source files' callers of the
  algorithm, with file-system facts passed in as parameters.

Python's `//` and `%` by a positive divisor agree with Dafny's Euclidean
`/` and `%`, so the size rules are stated with them directly.

A final partial signature lists its real pages in ascending order only when
it is at most half full (`n % s <= s / 2`). Otherwise the sheet pairing puts
a later page before an earlier one, as in 6 pages with signatures of 8.
`Layout.PartialSignature` proves both directions.

## Model

| member | source | states |
|---|---|---|
| SignatureOrder.SignatureCount | src/pdf_section_binding/core.py:57-59 | `(n + s - 1) // s` is the fewest signatures holding all `n` pages: `n <= count·s < n + s`, and it is zero only for an empty document |
| SignatureOrder.Pad | src/pdf_section_binding/core.py:61-66 | the padded list has the padded length; slot `j` holds page `j + 1` below `n` and a blank from `n` on |
| OrderProperties.GuardsAlwaysHold | src/pdf_section_binding/core.py:72-86 | the `< len(pages)` guards never skip a slot: the signatures exactly cover the padded list and the output is the unguarded sheet folding |
| Layout.OrderIsFolding | src/pdf_section_binding/core.py:72-88 | the printed order is the unguarded folding of the padded list with the blanks dropped |
| OrderProperties.OrderIsPermutation | src/pdf_section_binding/core.py:62-88 | for an even size the order is a permutation of `1..n`: the same multiset |
| OrderProperties.OrderListsEveryPageOnce | src/pdf_section_binding/core.py:62-88 | for an even size the order has length `n`, holds exactly the pages `1..n` and repeats none |
| OrderProperties.SheetsArePairs | src/pdf_section_binding/core.py:76-84 | inside the padded list the guarded sheets are exactly the plain back-then-front pairs of the signature |
| OrderProperties.SignaturesAreBlocks | src/pdf_section_binding/core.py:72-86 | signatures lying inside the list are emitted whole, one after the other, with no guard failing |
| OrderProperties.DropBlanksMembership | src/pdf_section_binding/core.py:88 | a page is in the filtered order exactly when its slot is in the reordered list |
| OrderProperties.DropBlanksOfPages | src/pdf_section_binding/core.py:88 | on a list without blanks the filter keeps every entry in its place |
| OrderProperties.EmptyAndSinglePage | tests/test_section_binding.py:108-118 | no pages give an empty order and one page gives `[1]`, for every even size |
| OrderProperties.OrderCountAtMostOnce | src/section_binding.py:46-62 | for any positive size, each page occurs at most once, and only pages `1..n` occur |
| OrderProperties.OrderHasNoRepeats | src/section_binding.py:46-62 | for any positive size the order is no longer than `n`, lies within `1..n` and repeats nothing |
| OrderProperties.OddSizeSkipsMiddle | src/section_binding.py:50-58 | for an odd size, the middle page of every signature that reaches it is never printed |
| Folding.BlocksMissMiddle | src/section_binding.py:50-58 | in the folding of any list with an odd size, the middle slot of a signature occurs fewer times than in the list |
| Folding.BlocksCount | src/pdf_section_binding/core.py:72-86 | with an even size, the folding of whole signatures keeps each value's number of occurrences |
| Folding.PairsStep | src/pdf_section_binding/core.py:76-84 | one more sheet appends its back slot and then its front slot |
| Layout.FullSignatureLayout | src/pdf_section_binding/core.py:76-84 | in a full signature starting at `at`, output place `at + j` holds page `at + SheetSlot(s, j) + 1` |
| Layout.SheetPairing | src/pdf_section_binding/core.py:76-84 | sheet `i` of a full signature starting at `at` prints `at + s - i` and then `at + i + 1` |
| Layout.SignatureIndependence | tests/test_section_binding.py:280-291 | a full signature `k` prints the lone-signature order `Order(s, s)` shifted by `k·s` |
| Layout.PartialSignature | src/pdf_section_binding/core.py:76-88 | the final partial signature reads in ascending order exactly when it holds at most `s/2` real pages, and then it is the pages after the full signatures, in order |
| WorkedCases.FourPageSignature | src/pdf_section_binding/core.py:76-84 | every full signature of four prints `[at+4, at+1, at+3, at+2]` |
| WorkedCases.EightPageSignature | src/pdf_section_binding/core.py:76-84 | every full signature of eight prints `[at+8, at+1, at+7, at+2, at+6, at+3, at+5, at+4]` |
| WorkedCases.ShortLastSignature | src/pdf_section_binding/core.py:76-88 | after `k` full signatures, a final one at most half full prints its pages in reading order |
| WorkedCases.FourPagesInFour | tests/test_section_binding.py:27-31 | `(4, 4)` gives `[4, 1, 3, 2]` |
| WorkedCases.EightPagesInEight | tests/test_section_binding.py:33-37 | `(8, 8)` gives `[8, 1, 7, 2, 6, 3, 5, 4]` |
| WorkedCases.SixPagesInFours | tests/test_section_binding.py:39-44 | `(6, 4)` gives `[4, 1, 3, 2] + [5, 6]` |
| WorkedCases.TwelvePagesInEights | tests/test_section_binding.py:46-64 | `(12, 8)` gives `[8, 1, 7, 2, 6, 3, 5, 4] + [9, 10, 11, 12]` |
| WorkedCases.FortyPagesInForty | tests/test_section_binding.py:72-85 | `(40, 40)` has 40 pages, starts `40, 1` and ends `21, 20` |
| WorkedCases.LoneSignatureStarts | tests/test_section_binding.py:87-106 | a lone signature of any even size starts with its last page and then its first |
| WorkedCases.LoneSignatureEnds | tests/test_section_binding.py:84-85 | a lone signature of any even size ends with its two middle pages, the later one first |
| WorkedCases.TenPagesInFours | tests/test_section_binding.py:120-126 | `(10, 4)` gives `[4, 1, 3, 2] + [8, 5, 7, 6] + [9, 10]` |
| WorkedCases.EightPagesInFours | tests/test_section_binding.py:280-291 | `(8, 4)` gives the two signatures `[4, 1, 3, 2] + [8, 5, 7, 6]` |
| WorkedCases.SixPagesInEight | src/pdf_section_binding/core.py:76-84 | `(6, 8)` gives `[1, 2, 6, 3, 5, 4]`: the two blanks fall on the back of the outer two sheets, so all six pages print but not in ascending order |
| WorkedCases.LeadingSheet | src/pdf_section_binding/core.py:76-84 | within the first signature, sheet `i` prints page `s - i` when it exists and then page `i + 1`, blanks dropped |
| WorkedCases.FivePagesInThrees | src/section_binding.py:50-58 | with the unvalidated size 3, pages 2 and 5 are lost |
| Core.CalculateSignatureOrder | src/pdf_section_binding/core.py:31-88 | fails exactly when `s % 4 != 0` or `s < 4`, with the multiple-of-four error checked first; otherwise lists each page of `range(1, n + 1)` exactly once |
| Core.ValidatedOrder | src/pdf_section_binding/core.py:56-88 | for a valid size the order has the listed length, holds exactly `1..n`, and repeats nothing |
| Core.ComputeStatistics | src/pdf_section_binding/core.py:144-146 | four pages per paper; the fewest signatures that hold the pages; the papers hold exactly the padded list |
| Core.CopiedPages | src/pdf_section_binding/core.py:169-178 | the copy never adds pages and every copied index addresses a page of the document |
| Core.CopyKeepsEveryPage | src/pdf_section_binding/core.py:177-178 | when every page number lies in `1..n`, the copy keeps every entry in order, as its 0-based index |
| Core.ProcessPdf | src/pdf_section_binding/core.py:131-197 | a size error comes back as a runtime error with its cause; a dry run has no output page count; otherwise the output has `n` pages; the papers hold between `n` and `n + s - 1` pages |
| Standalone.StandaloneOrder | src/section_binding.py:16-62 | a zero size divides by zero; a negative size prints nothing; every size gives distinct pages within `1..n`; every positive even size prints all of them |
| Standalone.CopiesAgree | src/section_binding.py:16-62 | the two Python bodies are the same text, so one shared definition models both; for a positive multiple of four the script's result is the package's |
| Standalone.UnvalidatedSizes | src/section_binding.py:50-58 | where the package refuses a positive size the script answers; an even size still prints every page; an odd size drops each signature's middle page |
| Standalone.CheckSignatureSize | src/section_binding.py:144-163 | accepts exactly the multiples of four from 4 to 128, checked in that order; for a non-multiple it suggests the multiples of four just below and just above it |
| Standalone.StandaloneOutputName | src/section_binding.py:171-173 | the default output always ends in `_section_bound.pdf`, and it is the whole input followed by that suffix exactly when the input has no extension |
| Standalone.ExtensionReplaced | src/section_binding.py:171-173 | a path `root + ext` whose root ends in a component that is not all dots gets `root_section_bound.pdf`, earlier dots kept: `my.book.pdf` gives `my.book_section_bound.pdf` |
| Standalone.MainRun | src/section_binding.py:144-176 | runs exactly when the size is accepted and the input exists; a size refusal comes first; an accepted size with a missing input stops with the missing-input failure; the output is the given one, or the default when none or an empty one is given |
| Standalone.PagesWritten | src/section_binding.py:92-94 | for an accepted size the script writes exactly `n` pages |
| Paths.SplitExtension | src/section_binding.py:172 | `splitext` splits the path into root and extension, which put back together give the path; the extension is a dot, then no dot or slash; there is one exactly when some dot of the last component follows a character other than a dot, and then the root's last component is not all dots |
| Paths.ExtensionSplit | src/section_binding.py:172 | a path `root + ext`, with `ext` a dot and then neither dot nor slash and the root's last component not all dots, splits into exactly `root` and `ext` |
| Paths.Suffix | src/pdf_section_binding/cli.py:238 | the suffix is the tail of the name from its last dot, present exactly when that dot is neither the first nor the last character: `my.book.pdf` has `.pdf`, `a.` and `.bashrc` have none |
| Paths.Stem | src/pdf_section_binding/cli.py:238 | the stem is the name without its suffix: stem followed by suffix gives back the name, and a name with a suffix has a non-empty stem |
| Paths.TaggedStem | src/pdf_section_binding/cli.py:237-238 | giving a name the stem `stem + tag` keeps its suffix, and the new name reads back with that stem |
| Cli.NearbySizes | src/pdf_section_binding/cli.py:79 | keeps exactly the common sizes within 8 of the current one and not equal to it, in list order |
| Cli.FirstFew | src/pdf_section_binding/cli.py:81 | `nearby[:3]` is a prefix of the list of at most three sizes, and the whole list when it is shorter than three |
| Cli.FirstFewSkipNothing | src/pdf_section_binding/cli.py:81 | `nearby[:3]` keeps one to three sizes in increasing order, and every size left out comes after the three kept |
| Cli.SuggestSignatureSizes | src/pdf_section_binding/cli.py:71-82 | a non-multiple of four gets the two multiples of four bracketing it; otherwise up to three nearby common sizes, in order with none skipped, or the fixed fallback list exactly when no common size is near |
| Cli.CliOutputName | src/pdf_section_binding/cli.py:236-238 | the default output fails exactly for an input with an empty last component; otherwise it keeps the input's directory |
| Cli.CliOutputNameReparses | src/pdf_section_binding/cli.py:236-238 | read back as a path, the default output has the input's directory and suffix, and the input's stem followed by `_section_bound` |
| Cli.ChosenOutput | src/pdf_section_binding/cli.py:236-238 | there is no output exactly when none or an empty one is given and the input has no name; a chosen output is never empty |
| Cli.DefaultOutputAsWritten | src/pdf_section_binding/cli.py:236-238 | on Python 3.`minor` the default name is formed exactly when `minor >= 9` and the input has a name, and then it is the tagged name (the suffix rule of 3.9 to 3.13) |
| Cli.DefaultOutputFailsBefore39 | src/pdf_section_binding/cli.py:238 | on Python 3.7 and 3.8 every named input fails for want of `with_stem`, while the corrected form succeeds |
| Cli.DefaultOutputCorrected | src/pdf_section_binding/cli.py:236-238 | the `with_name` form succeeds exactly for a named input on every version, gives the tagged name, and agrees with the code from Python 3.9 on |
| Cli.DefaultOutputCorrectedReparses | src/pdf_section_binding/cli.py:236-238 | on every supported version the corrected default reads back with the input's directory and suffix and the tagged stem |
| Cli.DefaultsCompared | src/pdf_section_binding/cli.py:236-238 | for `dir/stem.ext`, with a stem that may hold dots but is not all dots, the front end writes `dir/stem_section_bound.ext` and the script writes `dir/stem_section_bound.pdf`; they agree exactly when the extension is `.pdf` |
| Cli.HasInfixSomewhere | src/pdf_section_binding/cli.py:191 | `"very large" in pdf_error`: the scan from the front finds the word exactly when it occurs at some index of the message |
| Cli.ValidateArguments | src/pdf_section_binding/cli.py:179-275 | given that the input check does not let an input without a name through: passes exactly when the input is usable or only very large, the size is accepted, the output is writable unless this is a dry run, and quiet and verbose are not both set; each refusal happens exactly when every earlier check passed and its own fails, in the order input, multiple of four, at least 4, at most 128, output exists, directory unusable, quiet with verbose; the unnamed-input refusal never happens, so every refusal exits 1 |
| Cli.ExitStatus | src/pdf_section_binding/cli.py:362-364 | every refusal exits non-zero, and 22 exactly for the unnamed input whose `ValueError` would reach the invalid-input handler; `Cli.ValidateArguments` shows that refusal never happens |
| Cli.SizeRulesAgree | src/pdf_section_binding/cli.py:198-233 | the front end and the script accept the same sizes and, for a non-multiple of four, suggest the same two sizes |
| Cli.AcceptedSizeOrders | src/pdf_section_binding/cli.py:198-233 | arguments that pass the checks never make the page-order calculation raise |

## Left out

- Reading and writing PDF files (PyPDF2) is not modelled. The page count is a parameter, and the written document is the list of copied 0-based page indices.
- Progress bars, verbose logging, coloured output, the printed binding instructions and the text of every message are not modelled. They do not affect the order. They can affect the exit status: `main` and `print_binding_instructions` print emoji, and when standard output cannot encode them `print` raises `UnicodeEncodeError`. That is a `ValueError`, so the entry point returns 22 even though the output PDF was already written. This outcome is not modelled.
- The file-system checks are parameters of the models: whether the input exists and is a readable PDF, whether the output exists, and whether its directory can be created or written. So are the problem messages of `validate_pdf_file`.
- `validate_pdf_file` itself and `format_file_size` are not modelled. The size formatting uses floating point and only shapes a message.
- The exception rewrapping of `process_pdf` is modelled only for the size errors. `FileNotFoundError`, `PermissionError` and other I/O failures come from I/O that is not modelled.
- Exit statuses 2, 13 and 130 of the front end's `main` are not modelled. They come from I/O errors and keyboard interrupts.
- A size error inside `process_pdf` becomes a `RuntimeError` (status 1). The `ValueError` that `with_stem` raises for an unnamed input never arises, because `validate_pdf_file` (src/pdf_section_binding/cli.py:87-91) already refuses such a path as missing or not a file, with status 1. So the status 22 handler is reached only by the printing failure above.
- Cli.ValidateArguments: requires that the input check does not let an input without a name through. That excludes paths ending in `/` whose problem message holds "very large", such as `very large/`: the program only warns about them (src/pdf_section_binding/cli.py:191-192), and `pathlib` names the path `very large`, so the program goes on. Those paths fall under the normalisation this model leaves out (next line).
- Cli.CliOutputName: treats the text after the last `/` as the name. `pathlib`'s normalisation (collapsing `//` and `.` components, dropping a trailing `/`) is not modelled.
- Cli.CliOutputName: follows `pathlib` of Python 3.9 to 3.13, where `with_stem` exists. On Python 3.7 and 3.8 the code fails instead; see Findings.
- Cli.CliOutputName: the suffix rule of Python 3.14 and later is not modelled. That rule follows `splitext`: a trailing dot counts as a suffix and leading dots are skipped. So `a.` gives `a_section_bound.` and `..foo` gives `..foo_section_bound`.
- Cli.DefaultOutputAsWritten: for every `minor >= 9` it gives the name of the 3.9 to 3.13 suffix rule, which Python 3.14 changes for names with a trailing dot or several leading dots.
- Cli.DefaultOutputCorrected: likewise uses the 3.9 to 3.13 suffix rule for every version.
- Cli.CliOutputNameReparses: excludes names ending in a dot. For `a.`, `pathlib` sees no suffix, so the tagged name `a._section_bound` reads back with the tag as its suffix.
- Paths.SplitExtension: models POSIX `splitext` only. The alternate separators of other platforms are not modelled.
- The argument parser itself is not modelled. It supplies the defaults (size 8) and rejects non-integers before any of the modelled code runs.
- The standalone `reorder_pdf_for_section_binding` is modelled only through the pages it writes (`Standalone.PagesWritten`). Everything else it does is printing and file I/O.
- `add_page_numbers.py`, `create_test_pdf.py`, `demo.py`, `example_usage.py`, `publish.py` and `setup.py` are tooling around the core and are not part of this model.

## Findings

| source | as written | input that shows it | evidently intended | confidence | as-written member | corrected member |
|---|---|---|---|---|---|---|
| src/pdf_section_binding/cli.py:238 | the default output calls `PurePath.with_stem`, which Python added in 3.9, while setup.py:42-51 declares support from Python 3.7 | `pdf-section-binding book.pdf` with no `--output` on Python 3.7 or 3.8: `AttributeError`, which no handler of `main` catches, so a traceback and status 1 | `book_section_bound.pdf` on every supported version, for instance through `with_name(stem + "_section_bound" + suffix)` | not executed; high that the method is missing before 3.9 | Cli.DefaultOutputAsWritten, Cli.DefaultOutputFailsBefore39 | Cli.DefaultOutputCorrected, Cli.DefaultOutputCorrectedReparses |

The corrected form gives the same name as `Cli.CliOutputName`, which the
argument checks use, so the rest of the model already follows it.

=== FILE: cli.dfy ===
/**
  The command-line front end's pure rules: the signature-size suggestions,
  the argument checks in their order, and the default output name. File
  system facts the checks consult come in as parameters.
 */
module Cli {
  import opened Wrappers
  import opened Paths
  import Standalone
  import Core
  import opened Counting

  // ---------------------------------------------------------------------
  // Suggested sizes
  // ---------------------------------------------------------------------

  /** The common signature sizes, in the order they are offered. */
  const CommonSizes: seq<int> := [4, 8, 12, 16, 20, 24, 28, 32, 40, 48, 56, 64]

  /** The sizes offered when no common size is near the requested one. */
  const FallbackSizes: seq<int> := [4, 8, 16, 32, 40]

  /** At most this many nearby sizes are offered. */
  const MaxAlternatives: nat := 3

  /** What the size hint proposes. */
  datatype Suggestion =
    | TryEither(lower: int, higher: int)
    | Alternatives(sizes: seq<int>)
    | Fallback(sizes: seq<int>)

  /** `size` differs from `current` by at most eight pages, and is not `current` itself. */
  predicate Near(size: int, current: int)
  {
    -8 <= size - current <= 8 && size != current
  }

  /** The sizes of `sizes` near `current`, in their order. */
  function NearbySizes(sizes: seq<int>, current: int): (r: seq<int>)
    ensures forall x :: x in r <==> x in sizes && Near(x, current)
    ensures Increasing(sizes) ==> Increasing(r)
    decreases |sizes|
  {
    if |sizes| == 0 then []
    else
      var rest := NearbySizes(sizes[1..], current);
      assert forall x :: x in sizes[1..] ==> x in sizes;
      assert Increasing(sizes) ==> forall x :: x in rest ==> sizes[0] < x;
      PrependIncreasing(sizes[0], rest);
      if Near(sizes[0], current) then [sizes[0]] + rest else rest
  }

  lemma PrependIncreasing(x: int, xs: seq<int>)
    ensures Increasing(xs) && (forall y :: y in xs ==> x < y) ==> Increasing([x] + xs)
  {
    if Increasing(xs) && (forall y :: y in xs ==> x < y) {
      forall i, j | 0 <= i < j < |[x] + xs|
        ensures ([x] + xs)[i] < ([x] + xs)[j]
      {
        if i > 0 {
          assert ([x] + xs)[i] == xs[i - 1];
        }
        assert ([x] + xs)[j] == xs[j - 1] && xs[j - 1] in xs;
      }
    }
  }

  /** The slice `xs[:3]`: the first three, or all when there are fewer. */
  function FirstFew(xs: seq<int>): (r: seq<int>)
    ensures |r| <= MaxAlternatives && |r| <= |xs| && r == xs[..|r|]
    ensures |r| < MaxAlternatives ==> r == xs
  {
    if |xs| <= MaxAlternatives then xs else xs[..MaxAlternatives]
  }

  /**
    Of an increasing list, the first few keep their order and skip nothing:
    an element left out comes after three that were kept.
   */
  lemma FirstFewSkipNothing(xs: seq<int>)
    requires Increasing(xs) && |xs| > 0
    ensures 1 <= |FirstFew(xs)| <= MaxAlternatives && Increasing(FirstFew(xs))
    ensures forall x :: x in FirstFew(xs) ==> x in xs
    ensures forall x :: x in xs && x !in FirstFew(xs) ==> |FirstFew(xs)| == MaxAlternatives && FirstFew(xs)[2] < x
  {
    forall x | x in xs && x !in FirstFew(xs)
      ensures |FirstFew(xs)| == MaxAlternatives && FirstFew(xs)[2] < x
    {
      var i :| 0 <= i < |xs| && xs[i] == x;
      assert i >= MaxAlternatives;
    }
  }

  lemma CommonSizesIncreasing()
    ensures Increasing(CommonSizes)
  {
  }

  /**
    The size hint: for a non-multiple of four the multiples of four just
    below and just above; otherwise up to three common sizes near the
    requested one, in order and none skipped, or the fallback list when no
    common size is near.
   */
  function SuggestSignatureSizes(current: int): (r: Suggestion)
    ensures r.TryEither? <==> current % 4 != 0
    ensures r.TryEither? ==> r.lower % 4 == 0 && r.higher % 4 == 0 && r.lower < current < r.higher && r.higher - r.lower == 4
    ensures r.Fallback? <==> current % 4 == 0 && forall x :: x in CommonSizes ==> !Near(x, current)
    ensures r.Fallback? ==> r.sizes == FallbackSizes
    ensures r.Alternatives? ==> 1 <= |r.sizes| <= MaxAlternatives && Increasing(r.sizes)
    ensures r.Alternatives? ==> forall x :: x in r.sizes ==> x in CommonSizes && Near(x, current)
    ensures r.Alternatives? ==> forall x :: x in CommonSizes && Near(x, current) && x !in r.sizes ==>
              |r.sizes| == MaxAlternatives && r.sizes[2] < x
  {
    if current % 4 != 0 then TryEither((current / 4) * 4, (current / 4 + 1) * 4)
    else
      var nearby := NearbySizes(CommonSizes, current);
      CommonSizesIncreasing();
      if |nearby| > 0 then
        FirstFewSkipNothing(nearby);
        assert nearby[0] in nearby;
        Alternatives(FirstFew(nearby))
      else
        assert forall x :: x in CommonSizes ==> !Near(x, current);
        Fallback(FallbackSizes)
  }

  // ---------------------------------------------------------------------
  // The default output name
  // ---------------------------------------------------------------------

  /** What the default output name adds to the input's stem. */
  const BoundTag: string := "_section_bound"

  /**
    `Path(input).with_stem(stem + "_section_bound")`: the input's directory
    and suffix kept, the tag appended to the stem. An input with an empty
    last component has no name to change, and `with_name` refuses it.
   */
  function CliOutputName(input: string): (r: Option<string>)
    ensures r.None? <==> Name(input) == []
    ensures r.Some? ==> |Directory(input)| <= |r.value| && r.value[..|Directory(input)|] == Directory(input)
  {
    var name := Name(input);
    if name == [] then None
    else Some(Directory(input) + WithStem(name, Stem(name) + BoundTag))
  }

  /** The tag holds neither a dot nor a slash. */
  lemma BoundTagIsPlain()
    ensures '.' !in BoundTag && '/' !in BoundTag
  {
  }

  /**
    Read back as a path, the default output has the input's directory and
    suffix and the input's stem with the tag appended, unless the input's
    name ends in a dot (then the tag itself would become the suffix).
   */
  lemma CliOutputNameReparses(input: string)
    requires input != [] && input[|input| - 1] != '/' && input[|input| - 1] != '.'
    ensures CliOutputName(input).Some?
    ensures Directory(CliOutputName(input).value) == Directory(input)
    ensures Suffix(Name(CliOutputName(input).value)) == Suffix(Name(input))
    ensures Stem(Name(CliOutputName(input).value)) == Stem(Name(input)) + BoundTag
  {
    var dir, name := Directory(input), Name(input);
    assert name[|name| - 1] == input[|input| - 1];
    BoundTagIsPlain();
    StemAndSuffixHaveNoSlash(name);
    SplitAtDirectory(dir, WithStem(name, Stem(name) + BoundTag));
    TaggedStem(name, BoundTag);
  }

  /**
    Why the default output name cannot be formed: the input has no name to
    change (`with_name` raises `ValueError`), or the interpreter's `PurePath`
    has no `with_stem` method (`AttributeError`, which no handler of the
    entry point catches, so the program ends with a traceback and status 1).
   */
  datatype NameFailure = NoName | NoWithStem

  /**
    The default output as the front end computes it on Python `3.minor`:
    `with_stem` exists only from Python 3.9 on, while the package declares
    itself usable from Python 3.7.
   */
  function DefaultOutputAsWritten(minor: nat, input: string): (r: Result<string, NameFailure>)
    ensures r.Success? <==> 9 <= minor && Name(input) != []
    ensures r.Success? ==> Some(r.value) == CliOutputName(input)
    ensures r == Failure(NoName) <==> 9 <= minor && Name(input) == []
  {
    if minor < 9 then Failure(NoWithStem)
    else
      match CliOutputName(input)
      case None => Failure(NoName)
      case Some(out) => Success(out)
  }

  /**
    The same name built with `with_name(stem + "_section_bound" + suffix)`,
    which every supported Python provides: it does not depend on the version.
   */
  function DefaultOutputCorrected(minor: nat, input: string): (r: Result<string, NameFailure>)
    ensures r.Success? <==> Name(input) != []
    ensures r.Success? ==> Some(r.value) == CliOutputName(input)
    ensures 9 <= minor ==> r == DefaultOutputAsWritten(minor, input)
  {
    var name := Name(input);
    if name == [] then Failure(NoName)
    else Success(Directory(input) + (Stem(name) + BoundTag + Suffix(name)))
  }

  /**
    On Python 3.7 and 3.8, which the package declares it supports, the
    front end cannot form the default name of any named input, while the
    corrected form does.
   */
  lemma DefaultOutputFailsBefore39(minor: nat, input: string)
    requires 7 <= minor < 9 && Name(input) != []
    ensures DefaultOutputAsWritten(minor, input) == Failure(NoWithStem)
    ensures DefaultOutputCorrected(minor, input).Success?
  {
  }

  /**
    The corrected default output, on every supported version, reads back
    with the input's directory and suffix and the tagged stem, unless the
    name ends in a dot.
   */
  lemma DefaultOutputCorrectedReparses(minor: nat, input: string)
    requires 7 <= minor
    requires input != [] && input[|input| - 1] != '/' && input[|input| - 1] != '.'
    ensures DefaultOutputCorrected(minor, input).Success?
    ensures var out := DefaultOutputCorrected(minor, input).value;
      Directory(out) == Directory(input) && Suffix(Name(out)) == Suffix(Name(input))
      && Stem(Name(out)) == Stem(Name(input)) + BoundTag
  {
    CliOutputNameReparses(input);
  }

  /**
    For an input named `stem + ext`, whose stem may hold dots but is not all
    dots, the front end keeps the extension and the script always writes
    `.pdf`: the two defaults agree exactly when the extension is `.pdf`.
   */
  lemma DefaultsCompared(dir: string, stem: string, ext: string)
    requires (dir == [] || dir[|dir| - 1] == '/') && '/' !in stem && NamedComponent(stem)
    requires |ext| >= 2 && ext[0] == '.' && '.' !in ext[1..] && '/' !in ext
    ensures CliOutputName(dir + stem + ext) == Some(dir + (stem + BoundTag + ext))
    ensures Standalone.StandaloneOutputName(dir + stem + ext) == dir + stem + Standalone.BoundSuffix
    ensures CliOutputName(dir + stem + ext) == Some(Standalone.StandaloneOutputName(dir + stem + ext)) <==> ext == ".pdf"
  {
    assert NamedComponent(dir + stem) by {
      var j :| 0 <= j < |stem| && stem[j] != '.' && '/' !in stem[j..];
      assert (dir + stem)[|dir| + j..] == stem[j..];
      assert (dir + stem)[|dir| + j] == stem[j];
    }
    Standalone.ExtensionReplaced(dir + stem, ext);
    AppendAssoc(dir, stem, ext);
    SplitAtDirectory(dir, stem + ext);
    StemAndSuffixOf(stem, ext);
    BoundSuffixIsTaggedPdf();
    Regroup4(dir, stem, BoundTag, ext);
    TailsDecide(dir + stem, BoundTag, ext, ".pdf", Standalone.BoundSuffix);
  }

  lemma Regroup4<X>(a: seq<X>, b: seq<X>, c: seq<X>, d: seq<X>)
    ensures a + (b + c + d) == (a + b) + (c + d)
  {
  }

  /** With `suffix == tag + pdf`, `head + (tag + ext)` equals `head + suffix` exactly when `ext == pdf`. */
  lemma TailsDecide<X>(head: seq<X>, tag: seq<X>, ext: seq<X>, pdf: seq<X>, suffix: seq<X>)
    requires suffix == tag + pdf
    ensures head + (tag + ext) == head + suffix <==> ext == pdf
  {
    SameHeadSameTail(head, tag + ext, suffix);
    SameHeadSameTail(tag, ext, pdf);
  }

  /** The script's suffix is the tag followed by `.pdf`. */
  lemma BoundSuffixIsTaggedPdf()
    ensures Standalone.BoundSuffix == BoundTag + ".pdf"
  {
  }

  /** Two sequences with the same head are equal exactly when their tails are. */
  lemma SameHeadSameTail<X>(head: seq<X>, a: seq<X>, b: seq<X>)
    ensures head + a == head + b <==> a == b
  {
    if head + a == head + b {
      assert a == (head + a)[|head|..];
      assert b == (head + b)[|head|..];
    }
  }

  // ---------------------------------------------------------------------
  // The argument checks
  // ---------------------------------------------------------------------

  /** The parsed command line. */
  datatype Arguments = Arguments(
    input: string,
    output: Option<string>,
    signatureSize: int,
    dryRun: bool,
    verbose: bool,
    quiet: bool,
    force: bool)

  /** Why the checks stop the program. */
  datatype Rejection =
    | InvalidInput(message: string)
    | SizeNotMultipleOfFour(suggestion: Suggestion)
    | SizeBelowFour
    | SizeAboveMaximum
    | UnnamedInput
    | OutputExists
    | OutputDirectoryUnusable
    | QuietAndVerbose

  /** `word` occurs in `text`: Python's `word in text`. */
  predicate HasInfix(text: string, word: string)
    decreases |text|
  {
    |word| <= |text| && (text[..|word|] == word || HasInfix(text[1..], word))
  }

  /** `word` occurs in `text` starting at index `i`. */
  predicate InfixAt(text: string, word: string, i: int)
  {
    0 <= i && i + |word| <= |text| && text[i..i + |word|] == word
  }

  /** The scan from the front finds `word` exactly when it occurs at some index of `text`. */
  lemma {:induction false} HasInfixSomewhere(text: string, word: string)
    ensures HasInfix(text, word) <==> exists i :: InfixAt(text, word, i)
    decreases |text|
  {
    if |word| <= |text| {
      if text[..|word|] == word {
        assert InfixAt(text, word, 0);
      } else {
        var rest := text[1..];
        HasInfixSomewhere(rest, word);
        if exists i :: InfixAt(rest, word, i) {
          var i :| InfixAt(rest, word, i);
          assert rest[i..i + |word|] == text[i + 1..i + 1 + |word|];
          assert InfixAt(text, word, i + 1);
        }
        if exists i :: InfixAt(text, word, i) {
          var i :| InfixAt(text, word, i);
          assert i != 0;
          assert rest[i - 1..i - 1 + |word|] == text[i..i + |word|];
          assert InfixAt(rest, word, i - 1);
        }
      }
    }
  }

  /** An input problem that is only a warning: the file is very large. */
  predicate IsWarning(message: string)
  {
    HasInfix(message, "very large")
  }

  /** The size rule: a multiple of four between 4 and 128. */
  predicate SizeAccepted(s: int)
  {
    s % 4 == 0 && 4 <= s <= Standalone.MaxSignatureSize
  }

  /** The explicit output when one is given, otherwise the default name. */
  function ChosenOutput(args: Arguments): (r: Option<string>)
    ensures r.None? <==> (args.output.None? || args.output.value == []) && Name(args.input) == []
    ensures r.Some? ==> r.value != []
  {
    if args.output.Some? && args.output.value != [] then args.output else CliOutputName(args.input)
  }

  /** The input check lets the run go on: no problem, or only the very-large warning. */
  predicate InputAccepted(inputProblem: Option<string>)
  {
    inputProblem.None? || IsWarning(inputProblem.value)
  }

  /**
    The input check does not let an input without a name through. A path
    whose last component is empty is never an existing regular file, so
    `validate_pdf_file` reports it as missing or as not a file; that report
    quotes the path, so it is only a warning when the path itself holds
    "very large". Every path `pathlib` leaves without a name (`""`, `.`,
    `/`) is free of those words; a path like `very large/`, whose name this
    model reads as empty but `pathlib` reads as `very large`, is excluded.
   */
  predicate InputCheckConsistent(input: string, inputProblem: Option<string>)
  {
    Name(input) == [] ==> !InputAccepted(inputProblem)
  }

  /**
    The checks of `validate_arguments`, in their order: the input file
    (whose problem, found by the file system, is passed in; a very large
    file only warns), the size rule (multiple of four with a hint, then at
    least 4, then at most 128), the default output name, the output path
    unless this is a dry run (whether it exists and whether its directory is
    usable are passed in), and finally quiet together with verbose.
    Success gives the output path the run uses. Because the input check
    does not let an input without a name through, the default name is
    always formed and no refusal reaches the status-22 handler. The warning
    test looks for "very large" anywhere in the message, which quotes the
    path, so a missing `very large.pdf` passes with a warning.
   */
  function ValidateArguments(args: Arguments, inputProblem: Option<string>, outputExists: bool, directoryUsable: bool): (r: Result<string, Rejection>)
    requires InputCheckConsistent(args.input, inputProblem)
    ensures r.Success? <==>
              InputAccepted(inputProblem) && SizeAccepted(args.signatureSize)
              && (args.dryRun || ((!outputExists || args.force) && directoryUsable))
              && !(args.quiet && args.verbose)
    ensures r.Success? ==> Some(r.value) == ChosenOutput(args)
    ensures r.Failure? && r.error.InvalidInput? <==> !InputAccepted(inputProblem)
    ensures r.Failure? && r.error.InvalidInput? ==> Some(r.error.message) == inputProblem
    ensures InputAccepted(inputProblem) && args.signatureSize % 4 != 0 ==>
              r == Failure(SizeNotMultipleOfFour(SuggestSignatureSizes(args.signatureSize)))
    ensures InputAccepted(inputProblem) && args.signatureSize % 4 == 0 && args.signatureSize < 4 ==>
              r == Failure(SizeBelowFour)
    ensures InputAccepted(inputProblem) && args.signatureSize % 4 == 0 && args.signatureSize > Standalone.MaxSignatureSize ==>
              r == Failure(SizeAboveMaximum)
    ensures r != Failure(UnnamedInput)
    ensures r == Failure(OutputExists) <==>
              InputAccepted(inputProblem) && SizeAccepted(args.signatureSize) && !args.dryRun && outputExists && !args.force
    ensures r == Failure(OutputDirectoryUnusable) <==>
              InputAccepted(inputProblem) && SizeAccepted(args.signatureSize) && !args.dryRun && (!outputExists || args.force)
              && !directoryUsable
    ensures r == Failure(QuietAndVerbose) <==>
              InputAccepted(inputProblem) && SizeAccepted(args.signatureSize)
              && (args.dryRun || ((!outputExists || args.force) && directoryUsable)) && args.quiet && args.verbose
    ensures r.Failure? ==> ExitStatus(r.error) == 1
  {
    if inputProblem.Some? && !IsWarning(inputProblem.value) then Failure(InvalidInput(inputProblem.value))
    else if args.signatureSize % 4 != 0 then Failure(SizeNotMultipleOfFour(SuggestSignatureSizes(args.signatureSize)))
    else if args.signatureSize < 4 then Failure(SizeBelowFour)
    else if args.signatureSize > Standalone.MaxSignatureSize then Failure(SizeAboveMaximum)
    else
      match ChosenOutput(args)
      case None => Failure(UnnamedInput)
      case Some(output) =>
        if !args.dryRun && outputExists && !args.force then Failure(OutputExists)
        else if !args.dryRun && !directoryUsable then Failure(OutputDirectoryUnusable)
        else if args.quiet && args.verbose then Failure(QuietAndVerbose)
        else Success(output)
  }

  /**
    The exit status a rejection ends with: every check exits with 1, except
    that `with_stem`'s `ValueError` for an unnamed input would reach the entry
    point's handler for invalid input, which returns 22. The input check
    refuses such an input first, so `ValidateArguments` never yields it.
   */
  function ExitStatus(rejection: Rejection): (status: int)
    ensures status != 0
    ensures status == 22 <==> rejection.UnnamedInput?
  {
    if rejection.UnnamedInput? then 22 else 1
  }

  // ---------------------------------------------------------------------
  // The two front ends compared
  // ---------------------------------------------------------------------

  /**
    The front end and the script apply the same size rule, and for a
    non-multiple of four they suggest the same two neighbouring sizes.
   */
  lemma SizeRulesAgree(s: int)
    ensures SizeAccepted(s) <==> Standalone.CheckSignatureSize(s).None?
    ensures s % 4 != 0 ==>
              SuggestSignatureSizes(s) == TryEither(Standalone.CheckSignatureSize(s).value.lower, Standalone.CheckSignatureSize(s).value.higher)
  {
  }

  /**
    Arguments that pass the checks never make the page-order calculation
    raise: whatever the page count, an accepted size yields an order.
   */
  lemma AcceptedSizeOrders(args: Arguments, inputProblem: Option<string>, outputExists: bool, directoryUsable: bool, totalPages: int)
    requires InputCheckConsistent(args.input, inputProblem)
    requires ValidateArguments(args, inputProblem, outputExists, directoryUsable).Success?
    ensures Core.CalculateSignatureOrder(totalPages, args.signatureSize).Success?
  {
  }
}

=== FILE: core.dfy ===
/**
  The packaged page-order entry point and the pure parts of processing a
  document: the signature-size validation of `calculate_signature_order`,
  the processing statistics, and the page copy that fills the output.
  Reading and writing documents is not modelled; the page count comes in as
  a parameter and the copied page indices go out as a list.
 */
module Core {
  import opened Wrappers
  import opened SignatureOrder
  import opened OrderProperties

  /** The two `ValueError`s of the validated `calculate_signature_order`. */
  datatype SizeError = NotMultipleOfFour(size: int) | BelowFour(size: int)

  /** The pages `range(1, total_pages + 1)` lists: none for a negative count. */
  function PagesListed(totalPages: int): nat
  {
    if totalPages < 0 then 0 else totalPages
  }

  /**
    The validated page order: the multiple-of-four rule is checked first and
    the lower bound second; a valid size gives the signature order of the
    listed pages, each printed exactly once.
   */
  function CalculateSignatureOrder(totalPages: int, s: int): (r: Result<seq<nat>, SizeError>)
    ensures r.Failure? <==> s % 4 != 0 || s < 4
    ensures s % 4 != 0 ==> r == Failure(NotMultipleOfFour(s))
    ensures s % 4 == 0 && s < 4 ==> r == Failure(BelowFour(s))
    ensures r.Success? ==> |r.value| == PagesListed(totalPages)
    ensures r.Success? ==> forall p :: p in r.value <==> 1 <= p <= totalPages
    ensures r.Success? ==> forall i, j :: 0 <= i < j < |r.value| ==> r.value[i] != r.value[j]
  {
    if s % 4 != 0 then Failure(NotMultipleOfFour(s))
    else if s < 4 then Failure(BelowFour(s))
    else Success(ValidatedOrder(totalPages, s))
  }

  /** The order for a valid size lists each of the listed pages exactly once. */
  function ValidatedOrder(totalPages: int, s: int): (order: seq<nat>)
    requires s >= 4 && s % 4 == 0
    ensures |order| == PagesListed(totalPages)
    ensures forall p :: p in order <==> 1 <= p <= totalPages
    ensures forall i, j :: 0 <= i < j < |order| ==> order[i] != order[j]
  {
    var n := PagesListed(totalPages);
    OrderListsEveryPageOnce(n, s);
    Order(n, s)
  }

  /** The statistics of a run: papers per signature, signatures, and papers in all. */
  datatype Statistics = Statistics(papersPerSignature: int, totalSignatures: int, totalPapers: int)

  /**
    Each paper carries four pages; the signatures are the fewest that hold
    all the pages, and the papers hold exactly the padded page list.
   */
  function ComputeStatistics(totalPages: nat, s: int): (st: Statistics)
    requires s >= 4 && s % 4 == 0
    ensures st.papersPerSignature * 4 == s
    ensures st.totalSignatures >= 0 && totalPages <= st.totalSignatures * s
    ensures st.totalSignatures > 0 ==> (st.totalSignatures - 1) * s < totalPages
    ensures st.totalPapers * 4 == st.totalSignatures * s == PaddedLength(totalPages, s)
  {
    var papers := s / 4;
    var signatures := (totalPages + s - 1) / s;
    assert signatures == SignatureCount(totalPages, s);
    assert signatures * papers * 4 == signatures * (papers * 4);
    Statistics(papers, signatures, signatures * papers)
  }

  /**
    The page copy: every page number of the order that is non-zero and at
    most the page count is copied, as its 0-based index.
   */
  function CopiedPages(order: seq<nat>, totalPages: nat): (copied: seq<nat>)
    ensures |copied| <= |order|
    ensures forall i :: 0 <= i < |copied| ==> copied[i] < totalPages
  {
    if |order| == 0 then []
    else
      var p := order[|order| - 1];
      CopiedPages(order[..|order| - 1], totalPages) + (if p != 0 && p <= totalPages then [p - 1] else [])
  }

  /** When every page number lies in `1..totalPages`, the copy keeps all of them, in order. */
  lemma {:induction false} CopyKeepsEveryPage(order: seq<nat>, totalPages: nat)
    requires forall p :: p in order ==> 1 <= p <= totalPages
    ensures |CopiedPages(order, totalPages)| == |order|
    ensures forall i :: 0 <= i < |order| ==> CopiedPages(order, totalPages)[i] + 1 == order[i]
  {
    if |order| > 0 {
      var front := order[..|order| - 1];
      assert forall p :: p in front ==> p in order;
      CopyKeepsEveryPage(front, totalPages);
      assert order[|order| - 1] in order;
    }
  }

  /** The error `process_pdf` raises: every failure inside it becomes a `RuntimeError`. */
  datatype ProcessError = RuntimeError(cause: SizeError)

  /** The record a run of `process_pdf` returns. */
  datatype Report = Report(
    inputPath: string,
    outputPath: string,
    totalPages: nat,
    signatureSize: int,
    statistics: Statistics,
    pageOrder: seq<nat>,
    dryRun: bool,
    outputPages: Option<nat>)

  /**
    Processing a document of `totalPages` pages: a size error comes back
    wrapped as a runtime error; a dry run reports without copying; otherwise
    every page of the order is copied, so the output has `totalPages` pages.
   */
  function ProcessPdf(inputPath: string, outputPath: string, totalPages: nat, s: int, dryRun: bool): (r: Result<Report, ProcessError>)
    ensures r.Failure? <==> s % 4 != 0 || s < 4
    ensures r.Failure? ==> r.error.cause == if s % 4 != 0 then NotMultipleOfFour(s) else BelowFour(s)
    ensures r.Success? ==> r.value.dryRun == dryRun && |r.value.pageOrder| == totalPages
    ensures r.Success? ==> r.value.outputPages == if dryRun then None else Some(totalPages)
    ensures r.Success? ==> totalPages <= r.value.statistics.totalPapers * 4 < totalPages + s
  {
    match CalculateSignatureOrder(totalPages, s)
    case Failure(e) => Failure(RuntimeError(e))
    case Success(order) =>
      var report := Report(inputPath, outputPath, totalPages, s, ComputeStatistics(totalPages, s), order, dryRun, None);
      if dryRun then Success(report)
      else
        CopyKeepsEveryPage(order, totalPages);
        Success(report.(outputPages := Some(|CopiedPages(order, totalPages)|)))
  }
}

=== FILE: counting.dfy ===
/** Occurrence counts of sequence elements, the tool for the permutation proofs, and strict increase. */
module Counting {

  /** Strictly increasing. */
  predicate Increasing(xs: seq<int>)
  {
    forall i, j :: 0 <= i < j < |xs| ==> xs[i] < xs[j]
  }

  /** The number of positions of `xs` that hold `v`. */
  function Count<X(==)>(xs: seq<X>, v: X): nat
  {
    CountPrefix(xs, v, |xs|)
  }

  /** The number of positions below `i` of `xs` that hold `v`. */
  function CountPrefix<X(==)>(xs: seq<X>, v: X, i: nat): nat
    requires i <= |xs|
  {
    if i == 0 then 0 else CountPrefix(xs, v, i - 1) + (if xs[i - 1] == v then 1 else 0)
  }

  lemma {:induction false} CountPrefixOfAppendLeft<X>(a: seq<X>, b: seq<X>, v: X, i: nat)
    requires i <= |a|
    ensures CountPrefix(a + b, v, i) == CountPrefix(a, v, i)
  {
    if i > 0 {
      CountPrefixOfAppendLeft(a, b, v, i - 1);
    }
  }

  lemma {:induction false} CountPrefixOfAppendRight<X>(a: seq<X>, b: seq<X>, v: X, j: nat)
    requires j <= |b|
    ensures CountPrefix(a + b, v, |a| + j) == Count(a, v) + CountPrefix(b, v, j)
  {
    if j > 0 {
      CountPrefixOfAppendRight(a, b, v, j - 1);
      assert (a + b)[|a| + j - 1] == b[j - 1];
    } else {
      CountPrefixOfAppendLeft(a, b, v, |a|);
    }
  }

  /** A one-element sequence counts its element once and nothing else. */
  lemma CountSingle<X>(x: X, v: X)
    ensures Count([x], v) == if x == v then 1 else 0
  {
    assert CountPrefix([x], v, 0) == 0;
  }

  lemma CountAppend<X>(a: seq<X>, b: seq<X>, v: X)
    ensures Count(a + b, v) == Count(a, v) + Count(b, v)
  {
    CountPrefixOfAppendRight(a, b, v, |b|);
  }

  lemma {:induction false} CountPrefixIsMultiplicity<X>(xs: seq<X>, v: X, i: nat)
    requires i <= |xs|
    ensures multiset(xs[..i])[v] == CountPrefix(xs, v, i)
  {
    if i > 0 {
      assert xs[..i] == xs[..i - 1] + [xs[i - 1]];
      CountPrefixIsMultiplicity(xs, v, i - 1);
    }
  }

  /** `Count` is the multiplicity of `v` in the multiset of `xs`. */
  lemma CountIsMultiplicity<X>(xs: seq<X>, v: X)
    ensures multiset(xs)[v] == Count(xs, v)
  {
    CountPrefixIsMultiplicity(xs, v, |xs|);
    assert xs[..|xs|] == xs;
  }

  /** Two sequences whose counts agree everywhere are permutations of each other. */
  lemma SameCountsSameMultiset<X>(a: seq<X>, b: seq<X>)
    requires forall v :: Count(a, v) == Count(b, v)
    ensures multiset(a) == multiset(b)
  {
    forall v
      ensures multiset(a)[v] == multiset(b)[v]
    {
      CountIsMultiplicity(a, v);
      CountIsMultiplicity(b, v);
    }
  }

  /** A value is absent exactly when it is counted zero times. */
  lemma CountZeroIffAbsent<X>(xs: seq<X>, v: X)
    ensures Count(xs, v) == 0 <==> v !in xs
  {
    CountIsMultiplicity(xs, v);
  }

  /** A value found at two different positions is counted at least twice. */
  lemma TwoPositionsCountTwice<X>(xs: seq<X>, i: nat, j: nat)
    requires i < j < |xs| && xs[i] == xs[j]
    ensures Count(xs, xs[i]) >= 2
  {
    CountIsMultiplicity(xs, xs[i]);
    assert xs == xs[..i] + [xs[i]] + xs[i + 1..j] + [xs[j]] + xs[j + 1..];
  }

  /** Concatenation is associative. */
  lemma AppendAssoc<X>(a: seq<X>, b: seq<X>, c: seq<X>)
    ensures a + (b + c) == (a + b) + c
  {
  }

  // The slice lemmas below take every bound as a parameter of its own, so
  // that their conclusions mention exactly the slices their callers hold.

  /** Counting over a slice splits at any point inside it. */
  lemma SliceCount<X>(xs: seq<X>, i: nat, j: nat, k: nat, v: X)
    requires i <= j <= k <= |xs|
    ensures Count(xs[i..k], v) == Count(xs[i..j], v) + Count(xs[j..k], v)
  {
    assert xs[i..k] == xs[i..j] + xs[j..k];
    CountAppend(xs[i..j], xs[j..k], v);
  }

  /** A slice counts its last element `xs[k]` separately. */
  lemma CountSnoc<X>(xs: seq<X>, i: nat, k: nat, j: nat, v: X)
    requires i <= k && j == k + 1 && j <= |xs|
    ensures Count(xs[i..j], v) == Count(xs[i..k], v) + Count([xs[k]], v)
  {
    assert xs[i..j] == xs[i..k] + [xs[k]];
    CountAppend(xs[i..k], [xs[k]], v);
  }

  /** A slice counts its first element `xs[i]` separately. */
  lemma CountCons<X>(xs: seq<X>, i: nat, k: nat, j: nat, v: X)
    requires k == i + 1 && k <= j <= |xs|
    ensures Count(xs[i..j], v) == Count([xs[i]], v) + Count(xs[k..j], v)
  {
    assert xs[i..j] == [xs[i]] + xs[k..j];
    CountAppend([xs[i]], xs[k..j], v);
  }

  lemma PairCount<X>(x: X, y: X, v: X)
    ensures Count([x, y], v) == Count([x], v) + Count([y], v)
  {
    assert [x, y] == [x] + [y];
    CountAppend([x], [y], v);
  }

  /**
    Growing `b` by one slot from the back end and one from the front end of
    `xs` grows the two counted slices of `xs` by those slots.
   */
  lemma CountGrow<X>(xs: seq<X>, i: nat, front: nat, next: nat, back: nat, end: nat, a: seq<X>, b: seq<X>, v: X)
    requires i <= front && next == front + 1 && next <= |xs| && back < end <= |xs|
    requires a == b + [xs[back], xs[front]]
    requires Count(b, v) == Count(xs[i..front], v) + Count(xs[back + 1..end], v)
    ensures Count(a, v) == Count(xs[i..next], v) + Count(xs[back..end], v)
  {
    CountAppend(b, [xs[back], xs[front]], v);
    PairCount(xs[back], xs[front], v);
    CountSnoc(xs, i, front, next, v);
    CountCons(xs, back, back + 1, end, v);
  }

  /**
    A list made of a part counted like `xs[i..j]` followed by a part counted
    like `xs[j..k]` is counted like `xs[i..k]`.
   */
  lemma CountJoin<X>(xs: seq<X>, i: nat, j: nat, k: nat, whole: seq<X>, a: seq<X>, b: seq<X>, v: X)
    requires i <= j <= k <= |xs| && whole == a + b
    requires Count(a, v) == Count(xs[i..j], v) && Count(b, v) == Count(xs[j..k], v)
    ensures Count(whole, v) == Count(xs[i..k], v)
  {
    CountAppend(a, b, v);
    SliceCount(xs, i, j, k, v);
  }

  /** The at-most form of `CountJoin`. */
  lemma CountJoinAtMost<X>(xs: seq<X>, i: nat, j: nat, k: nat, whole: seq<X>, a: seq<X>, b: seq<X>, v: X)
    requires i <= j <= k <= |xs| && whole == a + b
    requires Count(a, v) <= Count(xs[i..j], v) && Count(b, v) <= Count(xs[j..k], v)
    ensures Count(whole, v) <= Count(xs[i..k], v)
  {
    CountAppend(a, b, v);
    SliceCount(xs, i, j, k, v);
  }

  /** Counting over three consecutive parts. */
  lemma CountThree<X>(whole: seq<X>, a: seq<X>, b: seq<X>, c: seq<X>, v: X)
    requires whole == a + b + c
    ensures Count(whole, v) == Count(a, v) + Count(b, v) + Count(c, v)
  {
    CountAppend(a + b, c, v);
    CountAppend(a, b, v);
  }

  /** A sequence counted no more often than another, value by value, is no longer. */
  lemma FewerCountsShorter<X>(a: seq<X>, b: seq<X>)
    requires forall v :: Count(a, v) <= Count(b, v)
    ensures |a| <= |b|
  {
    forall v
      ensures multiset(a)[v] <= multiset(b)[v]
    {
      CountIsMultiplicity(a, v);
      CountIsMultiplicity(b, v);
    }
    assert multiset(a) <= multiset(b);
    MultisetSubsetSmaller(multiset(a), multiset(b));
  }

  lemma {:induction false} MultisetSubsetSmaller<X>(a: multiset<X>, b: multiset<X>)
    requires a <= b
    ensures |a| <= |b|
    decreases |a|
  {
    if |a| > 0 {
      var x :| x in a;
      MultisetSubsetSmaller(a - multiset{x}, b - multiset{x});
    }
  }
}

=== FILE: folding.dfy ===
/**
  The folding pattern itself, over any element type and without the length
  guards: the sheets of one signature and the signatures one after another.
  The guarded construction of the page order is shown equal to this one
  wherever the signatures lie inside the list, and the counting and index
  facts are proved here once.
 */
module Folding {
  import opened Counting

  /**
    The number of slots `k` signatures of `s` slots cover, as a sum: the
    recursive lemmas step through it without multiplying.
   */
  function Span(k: nat, s: nat): nat
  {
    if k == 0 then 0 else s + Span(k - 1, s)
  }

  lemma {:induction false} SpanIsProduct(k: nat, s: nat)
    ensures Span(k, s) == k * s
  {
    if k > 0 {
      SpanIsProduct(k - 1, s);
      assert (k - 1) * s + s == k * s;
    }
  }

  lemma {:induction false} SpanMonotone(a: nat, b: nat, s: nat)
    requires a <= b
    ensures Span(a, s) <= Span(b, s)
  {
    if a < b {
      SpanMonotone(a, b - 1, s);
    }
  }

  /**
    The position, counted from the start of its signature, of the slot
    emitted at place `j` of the signature's output: sheet `j / 2` emits its
    back slot `s - 1 - j / 2` first and its front slot `j / 2` second.
   */
  function SheetSlot(s: nat, j: nat): (slot: nat)
    requires j < s
    ensures slot < s
  {
    if j % 2 == 0 then s - 1 - j / 2 else j / 2
  }

  /**
    The first `h` sheets of the signature of `s` slots held by
    `xs[lo..lo + s]`, in output order: place `j` holds the slot
    `SheetSlot(s, j)` of the signature.
   */
  function Pairs<X>(xs: seq<X>, lo: nat, s: nat, h: nat): (r: seq<X>)
    requires 2 * h <= s && lo + s <= |xs|
    ensures |r| == 2 * h
  {
    seq(2 * h, j requires 0 <= j < 2 * h => xs[lo + SheetSlot(s, j)])
  }

  /** Sheet `h - 1` appends its back slot and then its front slot to the sheets before it. */
  lemma PairsStep<X>(xs: seq<X>, lo: nat, s: nat, h: nat, back: nat, front: nat)
    requires 0 < h && 2 * h <= s && lo + s <= |xs| && back == lo + s - h && front == lo + h - 1
    ensures Pairs(xs, lo, s, h) == Pairs(xs, lo, s, h - 1) + [xs[back], xs[front]]
  {
    assert SheetSlot(s, 2 * h - 2) == s - h;
    assert SheetSlot(s, 2 * h - 1) == h - 1;
  }

  /** The first `h` sheets are the start of the first `g >= h`. */
  lemma PairsPrefix<X>(xs: seq<X>, lo: nat, s: nat, h: nat, g: nat)
    requires h <= g && 2 * g <= s && lo + s <= |xs|
    ensures Pairs(xs, lo, s, h) == Pairs(xs, lo, s, g)[..2 * h]
  {
  }

  /**
    The `k` signatures of `s` slots that begin at `start`, all sheets of
    each; the folding stops early at a signature that would run past the end
    of the list.
   */
  function Blocks<X>(xs: seq<X>, s: nat, start: nat, k: nat): seq<X>
    decreases k
  {
    if k == 0 || start + s > |xs| then [] else Pairs(xs, start, s, s / 2) + Blocks(xs, s, start + s, k - 1)
  }

  // ---------------------------------------------------------------------
  // Counting
  // ---------------------------------------------------------------------

  /** The first `h` sheets emit exactly the first `h` slots `lo..front` and the last `h` slots `back..end`. */
  lemma {:induction false} PairsCount<X>(xs: seq<X>, lo: nat, s: nat, h: nat, front: nat, back: nat, end: nat, v: X)
    requires 2 * h <= s && end == lo + s && end <= |xs| && front == lo + h && back == end - h
    ensures Count(Pairs(xs, lo, s, h), v) == Count(xs[lo..front], v) + Count(xs[back..end], v)
    decreases h
  {
    if h > 0 {
      PairsCount(xs, lo, s, h - 1, front - 1, back + 1, end, v);
      PairsStep(xs, lo, s, h, back, front - 1);
      CountGrow(xs, lo, front - 1, front, back, end, Pairs(xs, lo, s, h), Pairs(xs, lo, s, h - 1), v);
    }
  }

  /**
    One signature emits each of its slots once, except the middle slots
    `front..back` between its two halves: none when `s` is even, one when `s`
    is odd.
   */
  lemma PairsOfSignatureCount<X>(xs: seq<X>, start: nat, s: nat, front: nat, back: nat, end: nat, v: X)
    requires end == start + s && end <= |xs| && front == start + s / 2 && back == end - s / 2
    ensures Count(Pairs(xs, start, s, s / 2), v) + Count(xs[front..back], v) == Count(xs[start..end], v)
  {
    PairsCount(xs, start, s, s / 2, front, back, end, v);
    SliceCount(xs, start, front, end, v);
    SliceCount(xs, front, back, end, v);
  }

  /** A signature of even size emits each of its slots once. */
  lemma EvenSignatureCount<X>(xs: seq<X>, start: nat, s: nat, end: nat, v: X)
    requires s % 2 == 0 && end == start + s && end <= |xs|
    ensures Count(Pairs(xs, start, s, s / 2), v) == Count(xs[start..end], v)
  {
    PairsOfSignatureCount(xs, start, s, start + s / 2, start + s / 2, end, v);
  }

  /** A signature of any size emits each of its slots at most once. */
  lemma SignatureCountAtMost<X>(xs: seq<X>, start: nat, s: nat, end: nat, v: X)
    requires end == start + s && end <= |xs|
    ensures Count(Pairs(xs, start, s, s / 2), v) <= Count(xs[start..end], v)
  {
    PairsOfSignatureCount(xs, start, s, start + s / 2, end - s / 2, end, v);
  }

  /** `k` signatures of even size emit each of their slots `start..end` once. */
  lemma {:induction false} BlocksCount<X>(xs: seq<X>, s: nat, start: nat, k: nat, end: nat, v: X)
    requires s % 2 == 0 && end == start + Span(k, s) && end <= |xs|
    ensures Count(Blocks(xs, s, start, k), v) == Count(xs[start..end], v)
    decreases k
  {
    if k > 0 {
      BlocksCount(xs, s, start + s, k - 1, end, v);
      BlocksCountStep(xs, s, start, k, start + s, end, v);
    }
  }

  /** The first signature and the count of the ones after it give the count of all. */
  lemma BlocksCountStep<X>(xs: seq<X>, s: nat, start: nat, k: nat, next: nat, end: nat, v: X)
    requires s % 2 == 0 && 0 < k && next == start + s && next <= end <= |xs|
    requires Count(Blocks(xs, s, next, k - 1), v) == Count(xs[next..end], v)
    ensures Count(Blocks(xs, s, start, k), v) == Count(xs[start..end], v)
  {
    EvenSignatureCount(xs, start, s, next, v);
    CountJoin(xs, start, next, end, Blocks(xs, s, start, k), Pairs(xs, start, s, s / 2), Blocks(xs, s, next, k - 1), v);
  }

  /** `k` signatures of any size emit each of their slots `start..end` at most once. */
  lemma {:induction false} BlocksCountAtMost<X>(xs: seq<X>, s: nat, start: nat, k: nat, end: nat, v: X)
    requires end == start + Span(k, s) && end <= |xs|
    ensures Count(Blocks(xs, s, start, k), v) <= Count(xs[start..end], v)
    decreases k
  {
    if k > 0 {
      BlocksCountAtMost(xs, s, start + s, k - 1, end, v);
      BlocksCountAtMostStep(xs, s, start, k, start + s, end, v);
    }
  }

  /** The at-most form of `BlocksCountStep`, for a signature of any size. */
  lemma BlocksCountAtMostStep<X>(xs: seq<X>, s: nat, start: nat, k: nat, next: nat, end: nat, v: X)
    requires 0 < k && next == start + s && next <= end <= |xs|
    requires Count(Blocks(xs, s, next, k - 1), v) <= Count(xs[next..end], v)
    ensures Count(Blocks(xs, s, start, k), v) <= Count(xs[start..end], v)
  {
    SignatureCountAtMost(xs, start, s, next, v);
    CountJoinAtMost(xs, start, next, end, Blocks(xs, s, start, k), Pairs(xs, start, s, s / 2), Blocks(xs, s, next, k - 1), v);
  }

  /**
    With an odd signature size the middle slot `mid` of signature `k`, which
    holds `v`, is never emitted: the folding holds `v` fewer times than the
    list does.
   */
  lemma BlocksMissMiddle<X>(xs: seq<X>, s: nat, count: nat, k: nat, r: nat, at: nat, mid: nat, end: nat, v: X)
    requires s % 2 == 1 && count == k + 1 + r && at == Span(k, s) && Span(count, s) == |xs|
    requires mid == at + s / 2 && end == at + s && mid < |xs| && v == xs[mid]
    ensures Count(Blocks(xs, s, 0, count), v) < Count(xs, v)
  {
    SignatureInTheMiddle(xs, s, count, k, r, at, end);
    MiddleSignatureCounts(xs, s, k, r, at, end, mid, v);
    CountsMissMiddle(xs, at, mid, end, Blocks(xs, s, 0, count), Blocks(xs, s, 0, k), Pairs(xs, at, s, s / 2), Blocks(xs, s, end, r), v);
  }

  /** Signature `k` of `count = k + 1 + r` ends where the last `r` begin, which end at the end of the list. */
  lemma SignatureInTheMiddle<X>(xs: seq<X>, s: nat, count: nat, k: nat, r: nat, at: nat, end: nat)
    requires count == k + 1 + r && at == Span(k, s) && Span(count, s) == |xs| && end == at + s
    ensures end + Span(r, s) == |xs|
    ensures Blocks(xs, s, 0, count) == Blocks(xs, s, 0, k) + Pairs(xs, at, s, s / 2) + Blocks(xs, s, end, r)
  {
    SpanAround(count, k, r, s);
    BlocksSplit(xs, s, 0, count, k, r, at);
  }

  /** A span of `k + 1 + r` signatures is the first `k`, one more, and the last `r`. */
  lemma SpanAround(count: nat, k: nat, r: nat, s: nat)
    requires count == k + 1 + r
    ensures Span(count, s) == Span(k, s) + s + Span(r, s)
  {
    SpanSplit(k, 1 + r, s);
    assert Span(1 + r, s) == s + Span(r, s);
  }

  /** The counts of the three parts around signature `k`: at most their slots, its own without the middle. */
  lemma MiddleSignatureCounts<X>(xs: seq<X>, s: nat, k: nat, r: nat, at: nat, end: nat, mid: nat, v: X)
    requires s % 2 == 1 && at == Span(k, s) && end == at + s && end + Span(r, s) == |xs| && mid == at + s / 2
    ensures Count(Blocks(xs, s, 0, k), v) <= Count(xs[0..at], v)
    ensures Count(Blocks(xs, s, end, r), v) <= Count(xs[end..|xs|], v)
    ensures Count(Pairs(xs, at, s, s / 2), v) + Count(xs[mid..mid + 1], v) == Count(xs[at..end], v)
  {
    BlocksCountAtMost(xs, s, 0, k, at, v);
    BlocksCountAtMost(xs, s, end, r, |xs|, v);
    PairsOfSignatureCount(xs, at, s, mid, mid + 1, end, v);
  }

  /**
    A list made of parts counted at most like `xs[..at]`, like `xs[at..end]`
    without its slot `mid`, and at most like `xs[end..]` holds `xs[mid]`
    fewer times than `xs` does.
   */
  lemma CountsMissMiddle<X>(xs: seq<X>, at: nat, mid: nat, end: nat, whole: seq<X>, a: seq<X>, b: seq<X>, c: seq<X>, v: X)
    requires at <= mid < end <= |xs| && v == xs[mid] && whole == a + b + c
    requires Count(a, v) <= Count(xs[0..at], v) && Count(c, v) <= Count(xs[end..|xs|], v)
    requires Count(b, v) + Count(xs[mid..mid + 1], v) == Count(xs[at..end], v)
    ensures Count(whole, v) < Count(xs, v)
  {
    MiddleCount(xs, mid, mid + 1, v);
    SliceCount(xs, 0, at, |xs|, v);
    SliceCount(xs, at, end, |xs|, v);
    assert xs[0..|xs|] == xs;
    CountThree(whole, a, b, c, v);
  }

  lemma MiddleCount<X>(xs: seq<X>, mid: nat, next: nat, v: X)
    requires next == mid + 1 && next <= |xs| && xs[mid] == v
    ensures Count(xs[mid..next], v) == 1
  {
    assert xs[mid..next] == [v];
    CountSingle(v, v);
  }

  // ---------------------------------------------------------------------
  // Positions
  // ---------------------------------------------------------------------

  /** `k` signatures of even size emit `Span(k, s)` slots. */
  lemma {:induction false} BlocksLength<X>(xs: seq<X>, s: nat, start: nat, k: nat)
    requires s % 2 == 0 && start + Span(k, s) <= |xs|
    ensures |Blocks(xs, s, start, k)| == Span(k, s)
    decreases k
  {
    if k > 0 {
      BlocksLength(xs, s, start + s, k - 1);
    }
  }

  /**
    Signature `m` of the `k = m + 1 + r` that begin at `start` sits between
    the first `m` and the remaining `r`.
   */
  lemma {:induction false} BlocksSplit<X>(xs: seq<X>, s: nat, start: nat, k: nat, m: nat, r: nat, at: nat)
    requires k == m + 1 + r && start + Span(k, s) <= |xs| && at == start + Span(m, s)
    ensures at + s + Span(r, s) <= |xs|
    ensures Blocks(xs, s, start, k) == Blocks(xs, s, start, m) + Pairs(xs, at, s, s / 2) + Blocks(xs, s, at + s, r)
    decreases m
  {
    SpanSplit(m + 1, r, s);
    if m == 0 {
      BlocksSplitFirst(xs, s, start, k, r);
    } else {
      BlocksSplit(xs, s, start + s, k - 1, m - 1, r, at);
      BlocksSplitStep(xs, s, start, k, m, r, at);
    }
  }

  /** Signature 0 sits between no signature and the remaining `r`. */
  lemma BlocksSplitFirst<X>(xs: seq<X>, s: nat, start: nat, k: nat, r: nat)
    requires k == 1 + r && start + s <= |xs|
    ensures Blocks(xs, s, start, k) == Blocks(xs, s, start, 0) + Pairs(xs, start, s, s / 2) + Blocks(xs, s, start + s, r)
  {
    assert Blocks(xs, s, start, 0) == [];
  }

  /** The split of the signatures after the first one extends to all of them. */
  lemma BlocksSplitStep<X>(xs: seq<X>, s: nat, start: nat, k: nat, m: nat, r: nat, at: nat)
    requires 0 < m && k == m + 1 + r && start + s <= |xs| && at + s <= |xs|
    requires Blocks(xs, s, start + s, k - 1)
          == Blocks(xs, s, start + s, m - 1) + Pairs(xs, at, s, s / 2) + Blocks(xs, s, at + s, r)
    ensures Blocks(xs, s, start, k) == Blocks(xs, s, start, m) + Pairs(xs, at, s, s / 2) + Blocks(xs, s, at + s, r)
  {
    Regroup(Blocks(xs, s, start, k), Blocks(xs, s, start, m), Pairs(xs, start, s, s / 2),
            Blocks(xs, s, start + s, k - 1), Blocks(xs, s, start + s, m - 1), Pairs(xs, at, s, s / 2),
            Blocks(xs, s, at + s, r));
  }

  /** `first + (middle + block + rest)` regrouped as `(first + middle) + block + rest`. */
  lemma Regroup<X>(whole: seq<X>, left: seq<X>, first: seq<X>, tail: seq<X>, middle: seq<X>, block: seq<X>, rest: seq<X>)
    requires whole == first + tail && tail == middle + block + rest && left == first + middle
    ensures whole == left + block + rest
  {
    AppendAssoc(first, middle + block, rest);
    AppendAssoc(first, middle, block);
  }

  /** A span of `a + b` signatures is a span of `a` followed by a span of `b`. */
  lemma {:induction false} SpanSplit(a: nat, b: nat, s: nat)
    ensures Span(a + b, s) == Span(a, s) + Span(b, s)
  {
    if a > 0 {
      SpanSplit(a - 1, b, s);
    }
  }
}

=== FILE: layout.dfy ===
/**
  Where each page lands in the print order: the fixed back/front pairing of
  every sheet, the independence of full signatures, and the shape of a final
  partial signature.
 */
module Layout {
  import opened Wrappers
  import opened Counting
  import opened Folding
  import opened SignatureOrder
  import opened OrderProperties

  /** The `m` pages that follow page `a`: `a + 1, ..., a + m`. */
  function PagesAfter(a: nat, m: nat): (r: seq<nat>)
    ensures |r| == m
  {
    seq(m, j => a + j + 1)
  }

  /** Dropping the blanks removes exactly the blank slots. */
  lemma {:induction false} DropBlanksLength(slots: seq<Slot>)
    ensures |DropBlanks(slots)| + Count(slots, None) == |slots|
  {
    if |slots| > 0 {
      DropBlanksLength(slots[1..]);
      assert slots == [slots[0]] + slots[1..];
      CountAppend([slots[0]], slots[1..], None);
      CountSingle(slots[0], None);
    }
  }

  // ---------------------------------------------------------------------
  // Signatures one after the other
  // ---------------------------------------------------------------------

  /**
    Signature `k` below the signature count begins before page `n`, and it
    and the signatures after it fill the padded list to its end.
   */
  lemma SignatureStart(n: nat, s: nat, k: nat, at: nat)
    requires s > 0 && k < SignatureCount(n, s) && at == Span(k, s)
    ensures at < n
    ensures at + s + Span(SignatureCount(n, s) - k - 1, s) == |Pad(n, s)|
  {
    var count := SignatureCount(n, s);
    SpanIsProduct(count, s);
    SpanMonotone(k, count - 1, s);
    SpanSplit(k + 1, count - k - 1, s);
  }

  /** The print order is the unguarded folding of the padded list, blanks dropped. */
  lemma OrderIsFolding(n: nat, s: nat)
    requires s > 0
    ensures Span(SignatureCount(n, s), s) == |Pad(n, s)|
    ensures Order(n, s) == DropBlanks(Blocks(Pad(n, s), s, 0, SignatureCount(n, s)))
  {
    GuardsAlwaysHold(n, s);
  }

  /** The padded list holds no blank before page `n`. */
  lemma PadPrefixHasNoBlanks(n: nat, s: nat, at: nat)
    requires s > 0 && at <= n
    ensures at <= |Pad(n, s)| && Count(Pad(n, s)[0..at], None) == 0
  {
    var pages := Pad(n, s);
    assert None !in pages[0..at] by {
      forall i | 0 <= i < at
        ensures pages[0..at][i] != None
      {
        assert pages[0..at][i] == pages[i];
      }
    }
    CountZeroIffAbsent(pages[0..at], None);
  }

  /** Signatures that hold no blank lose nothing when the blanks are dropped. */
  lemma BlanklessSignatures(pages: seq<Slot>, s: nat, k: nat, at: nat)
    requires s % 2 == 0 && at == Span(k, s) && at <= |pages| && Count(pages[0..at], None) == 0
    ensures |DropBlanks(Blocks(pages, s, 0, k))| == at
  {
    BlocksCountAtMost(pages, s, 0, k, at, None);
    BlocksLength(pages, s, 0, k);
    DropBlanksLength(Blocks(pages, s, 0, k));
  }

  /**
    With no blank before signature `k`, the folded list with its blanks
    dropped splits into the `at` pages of the earlier signatures, those of
    signature `k`, and those of the `r` later ones.
   */
  lemma FoldingSplit(pages: seq<Slot>, s: nat, count: nat, k: nat, r: nat, at: nat)
    requires s % 2 == 0 && count == k + 1 + r && Span(count, s) <= |pages| && at == Span(k, s)
    requires at <= |pages| && Count(pages[0..at], None) == 0
    ensures at + s + Span(r, s) <= |pages|
    ensures DropBlanks(Blocks(pages, s, 0, count))
         == DropBlanks(Blocks(pages, s, 0, k)) + DropBlanks(Pairs(pages, at, s, s / 2)) + DropBlanks(Blocks(pages, s, at + s, r))
    ensures |DropBlanks(Blocks(pages, s, 0, k))| == at
  {
    BlocksSplit(pages, s, 0, count, k, r, at);
    DropBlanksOfThree(Blocks(pages, s, 0, count), Blocks(pages, s, 0, k), Pairs(pages, at, s, s / 2),
                      Blocks(pages, s, at + s, r));
    BlanklessSignatures(pages, s, k, at);
  }

  /** Dropping the blanks of three consecutive parts drops them part by part. */
  lemma DropBlanksOfThree(whole: seq<Slot>, a: seq<Slot>, b: seq<Slot>, c: seq<Slot>)
    requires whole == a + b + c
    ensures DropBlanks(whole) == DropBlanks(a) + DropBlanks(b) + DropBlanks(c)
  {
    DropBlanksAppend(a + b, c);
    DropBlanksAppend(a, b);
  }

  /** Place `j` of the middle part of `a + b + c` is place `|a| + j` of the whole. */
  lemma IndexOfMiddle<X>(whole: seq<X>, a: seq<X>, b: seq<X>, c: seq<X>, i: nat, j: nat)
    requires whole == a + b + c && j < |b| && i == |a| + j
    ensures i < |whole| && whole[i] == b[j]
  {
  }

  /**
    With no blank before signature `k`, place `j` of signature `k`'s pages
    is place `at + j` of the whole folded list with its blanks dropped.
   */
  lemma FoldingIndex(pages: seq<Slot>, s: nat, count: nat, k: nat, r: nat, at: nat, j: nat)
    requires s % 2 == 0 && count == k + 1 + r && Span(count, s) <= |pages| && at == Span(k, s) && at + s <= |pages|
    requires Count(pages[0..at], None) == 0 && j < |DropBlanks(Pairs(pages, at, s, s / 2))|
    ensures at + j < |DropBlanks(Blocks(pages, s, 0, count))|
    ensures DropBlanks(Blocks(pages, s, 0, count))[at + j] == DropBlanks(Pairs(pages, at, s, s / 2))[j]
  {
    FoldingSplit(pages, s, count, k, r, at);
    IndexOfMiddle(DropBlanks(Blocks(pages, s, 0, count)), DropBlanks(Blocks(pages, s, 0, k)),
                  DropBlanks(Pairs(pages, at, s, s / 2)), DropBlanks(Blocks(pages, s, at + s, r)), at + j, j);
  }

  // ---------------------------------------------------------------------
  // Full signatures
  // ---------------------------------------------------------------------

  /**
    Signature `k` with all its `s` pages present lies inside the padded list
    after pages only, and emits, at place `j`, the page in its slot
    `SheetSlot(s, j)`.
   */
  lemma FullSignature(n: nat, s: nat, k: nat, at: nat)
    requires s > 0 && s % 2 == 0 && at == k * s && at + s <= n
    ensures k < SignatureCount(n, s) && at == Span(k, s) && at + s <= |Pad(n, s)|
    ensures Count(Pad(n, s)[0..at], None) == 0
    ensures |DropBlanks(Pairs(Pad(n, s), at, s, s / 2))| == s
    ensures forall j :: 0 <= j < s ==> DropBlanks(Pairs(Pad(n, s), at, s, s / 2))[j] == at + SheetSlot(s, j) + 1
  {
    MulCancel(k, SignatureCount(n, s), s);
    SpanIsProduct(k, s);
    SignatureStart(n, s, k, at);
    PadPrefixHasNoBlanks(n, s, at);
    DropBlanksOfPages(Pairs(Pad(n, s), at, s, s / 2));
  }

  /**
    Place `j` of a full signature `k` (one whose `s` pages all exist) holds
    the 1-based page `k * s + SheetSlot(s, j) + 1`.
   */
  lemma FullSignatureLayout(n: nat, s: nat, k: nat, at: nat, j: nat)
    requires s > 0 && s % 2 == 0 && at == k * s && at + s <= n && j < s
    ensures at + j < |Order(n, s)|
    ensures Order(n, s)[at + j] == at + SheetSlot(s, j) + 1
  {
    FullSignature(n, s, k, at);
    OrderIsFolding(n, s);
    var count := SignatureCount(n, s);
    FoldingIndex(Pad(n, s), s, count, k, count - k - 1, at, j);
  }

  /** The places of sheet `i` in its signature's output: its back slot, then its front slot. */
  lemma SheetSlotsOfSheet(s: nat, i: nat)
    requires i < s / 2
    ensures SheetSlot(s, 2 * i) == s - 1 - i && SheetSlot(s, 2 * i + 1) == i
  {
  }

  /**
    Sheet `i` of a full signature `k` prints the 1-based page `k*s + s - i`
    and then the page `k*s + i + 1`.
   */
  lemma SheetPairing(n: nat, s: nat, k: nat, at: nat, i: nat)
    requires s > 0 && s % 2 == 0 && at == k * s && at + s <= n && i < s / 2
    ensures at + 2 * i + 1 < |Order(n, s)|
    ensures Order(n, s)[at + 2 * i] == at + s - i
    ensures Order(n, s)[at + 2 * i + 1] == at + i + 1
  {
    SheetSlotsOfSheet(s, i);
    FullSignatureLayout(n, s, k, at, 2 * i);
    FullSignatureLayout(n, s, k, at, 2 * i + 1);
  }

  /**
    A full signature is laid out independently of the others: its output is
    the output for a lone signature of `s` pages, shifted by its first page.
   */
  lemma SignatureIndependence(n: nat, s: nat, k: nat, at: nat)
    requires s > 0 && s % 2 == 0 && at == k * s && at + s <= n
    ensures |Order(n, s)| == n
    ensures Order(n, s)[at..at + s] == Shift(Order(s, s), at)
  {
    OrderListsEveryPageOnce(n, s);
    OrderListsEveryPageOnce(s, s);
    forall j | 0 <= j < s
      ensures Order(n, s)[at..at + s][j] == Shift(Order(s, s), at)[j]
    {
      FullSignatureLayout(n, s, k, at, j);
      FullSignatureLayout(s, s, 0, 0, j);
    }
  }

  // ---------------------------------------------------------------------
  // A final partial signature
  // ---------------------------------------------------------------------

  /** `pages` has the shape of a padded list of `n` pages: page `i + 1` at index `i < n`, blanks after. */
  ghost predicate PaddedShape(pages: seq<Slot>, n: nat)
  {
    forall i :: 0 <= i < |pages| ==> pages[i] == if i < n then Some(i + 1) else None
  }

  /** The last signature, the `k + 1`st of `k + 1`, is all that follows its first `at` pages. */
  lemma FoldingTail(pages: seq<Slot>, s: nat, count: nat, k: nat, at: nat)
    requires s % 2 == 0 && count == k + 1 && Span(count, s) <= |pages| && at == Span(k, s) && at + s <= |pages|
    requires Count(pages[0..at], None) == 0
    ensures at <= |DropBlanks(Blocks(pages, s, 0, count))|
    ensures DropBlanks(Blocks(pages, s, 0, count))[at..] == DropBlanks(Pairs(pages, at, s, s / 2))
  {
    FoldingSplit(pages, s, count, k, 0, at);
    assert DropBlanks(Blocks(pages, s, at + s, 0)) == [];
    var whole := DropBlanks(Blocks(pages, s, 0, count));
    assert whole == DropBlanks(Blocks(pages, s, 0, k)) + DropBlanks(Pairs(pages, at, s, s / 2));
  }

  /** One more page after the first `m`. */
  lemma PagesAfterStep(a: nat, m: nat)
    ensures PagesAfter(a, m + 1) == PagesAfter(a, m) + [a + m + 1]
  {
  }

  /**
    When the real pages of the signature at `start` end at page `n` no later
    than its middle, its sheets' back slots are all blank and its front
    slots hold the pages in order: the first `h` sheets emit the pages
    `start + 1 .. start + min(h, n - start)`.
   */
  lemma {:induction false} ShortTailPages(pages: seq<Slot>, n: nat, start: nat, s: nat, h: nat)
    requires PaddedShape(pages, n) && start <= n && 2 * (n - start) <= s && start + s <= |pages| && h <= s / 2
    ensures DropBlanks(Pairs(pages, start, s, h)) == PagesAfter(start, if h <= n - start then h else n - start)
    decreases h
  {
    if h > 0 {
      ShortTailPages(pages, n, start, s, h - 1);
      ShortTailStep(pages, n, start, s, h, start + s - h, start + h - 1);
    }
  }

  /** Sheet `h - 1` of a short tail adds no page from its back slot and at most the next page from its front slot. */
  lemma ShortTailStep(pages: seq<Slot>, n: nat, start: nat, s: nat, h: nat, back: nat, front: nat)
    requires PaddedShape(pages, n) && start <= n && 2 * (n - start) <= s && start + s <= |pages| && 0 < h <= s / 2
    requires back == start + s - h && front == start + h - 1
    requires DropBlanks(Pairs(pages, start, s, h - 1)) == PagesAfter(start, if h - 1 <= n - start then h - 1 else n - start)
    ensures DropBlanks(Pairs(pages, start, s, h)) == PagesAfter(start, if h <= n - start then h else n - start)
  {
    PairsStep(pages, start, s, h, back, front);
    DropBlanksAppend(Pairs(pages, start, s, h - 1), [pages[back], pages[front]]);
    assert pages[back] == None;
    if h <= n - start {
      assert DropBlanks([pages[back], pages[front]]) == [start + h];
      PagesAfterStep(start, h - 1);
    } else {
      assert DropBlanks([pages[back], pages[front]]) == [];
    }
  }

  /**
    When the real pages of the signature at `start` run past its middle,
    sheet `h - 1 = s - (n - start)` is the first whose back slot holds a
    page: it emits the last page `n` and then its front page `front + 1`,
    which is smaller.
   */
  lemma LongTailSheet(pages: seq<Slot>, n: nat, start: nat, s: nat, h: nat, back: nat, front: nat)
    requires PaddedShape(pages, n) && start + s <= |pages| && 0 < h <= s / 2
    requires back == start + s - h && front == start + h - 1 && back + 1 == n && front + 1 < n
    ensures DropBlanks(Pairs(pages, start, s, h)) == DropBlanks(Pairs(pages, start, s, h - 1)) + [n, front + 1]
  {
    PairsStep(pages, start, s, h, back, front);
    DropBlanksAppend(Pairs(pages, start, s, h - 1), [pages[back], pages[front]]);
    assert DropBlanks([pages[back], pages[front]]) == [n, front + 1];
  }

  /**
    When the real pages of the signature at `start` run past its middle, its
    pages do not come out ascending: the last page `n` is followed by a
    smaller one.
   */
  lemma LongTailPages(pages: seq<Slot>, n: nat, start: nat, s: nat)
    requires PaddedShape(pages, n) && s % 2 == 0 && start < n < start + s && 2 * (n - start) > s && start + s <= |pages|
    ensures exists i :: 0 <= i && i + 1 < |DropBlanks(Pairs(pages, start, s, s / 2))|
                       && DropBlanks(Pairs(pages, start, s, s / 2))[i] == n
                       && DropBlanks(Pairs(pages, start, s, s / 2))[i + 1] < n
  {
    var h := s - (n - start) + 1;
    var whole, first := Pairs(pages, start, s, s / 2), Pairs(pages, start, s, h);
    PairsPrefix(pages, start, s, h, s / 2);
    assert whole == first + whole[2 * h..];
    DropBlanksAppend(first, whole[2 * h..]);
    LongTailSheet(pages, n, start, s, h, start + s - h, start + h - 1);
    var i := |DropBlanks(Pairs(pages, start, s, h - 1))|;
    assert DropBlanks(whole)[i] == n && DropBlanks(whole)[i + 1] < n;
  }

  /**
    The pages of a partial signature at `start`, ending at page `n`, come out
    ascending exactly when they fill at most half of it, and then they are
    the pages `start + 1 .. n` in order.
   */
  lemma TailShape(pages: seq<Slot>, n: nat, start: nat, s: nat)
    requires PaddedShape(pages, n) && s % 2 == 0 && start < n < start + s && start + s <= |pages|
    ensures Increasing(DropBlanks(Pairs(pages, start, s, s / 2))) <==> 2 * (n - start) <= s
    ensures 2 * (n - start) <= s ==> DropBlanks(Pairs(pages, start, s, s / 2)) == PagesAfter(start, n - start)
  {
    if 2 * (n - start) <= s {
      ShortTailPages(pages, n, start, s, s / 2);
    } else {
      LongTailPages(pages, n, start, s);
    }
  }

  /**
    The last signature of a folded padded list, holding its last `rr`
    pages after the first `at`: its pages come out ascending exactly when
    they fill at most half of it, and then they are `at + 1 .. at + rr`.
   */
  lemma FoldingTailShape(pages: seq<Slot>, n: nat, s: nat, count: nat, k: nat, at: nat, rr: nat)
    requires PaddedShape(pages, n) && s % 2 == 0 && count == k + 1 && Span(count, s) <= |pages|
    requires at == Span(k, s) && at < n < at + s && rr == n - at && at + s <= |pages| && Count(pages[0..at], None) == 0
    ensures at <= |DropBlanks(Blocks(pages, s, 0, count))|
    ensures Increasing(DropBlanks(Blocks(pages, s, 0, count))[at..]) <==> 2 * rr <= s
    ensures 2 * rr <= s ==> DropBlanks(Blocks(pages, s, 0, count))[at..] == PagesAfter(at, rr)
  {
    FoldingTail(pages, s, count, k, at);
    TailShape(pages, n, at, s);
  }

  /** The last signature when `s` does not divide `n`: where it starts, and the padded list around it. */
  lemma LastSignatureFacts(n: nat, s: nat)
    requires s > 0 && n % s != 0
    ensures SignatureCount(n, s) == n / s + 1 && (n / s) * s == Span(n / s, s)
    ensures (n / s) * s < n < (n / s) * s + s && n - (n / s) * s == n % s
    ensures (n / s) * s + s <= |Pad(n, s)| && Span(SignatureCount(n, s), s) == |Pad(n, s)|
    ensures Count(Pad(n, s)[0..(n / s) * s], None) == 0
    ensures PaddedShape(Pad(n, s), n)
  {
    var k, at := n / s, (n / s) * s;
    LastSignature(n, s);
    SpanIsProduct(k, s);
    SpanIsProduct(k + 1, s);
    SignatureStart(n, s, k, at);
    PadPrefixHasNoBlanks(n, s, at);
  }

  /**
    The final signature of a page count `n` that `s` does not divide holds
    the `n % s` pages after its first page `at = (n / s) * s`; they come out
    ascending, as `at + 1 .. n`, exactly when `n % s <= s / 2`.
   */
  lemma PartialSignature(n: nat, s: nat, at: nat)
    requires s > 0 && s % 2 == 0 && n % s != 0 && at == (n / s) * s
    ensures at < n && at <= |Order(n, s)|
    ensures Increasing(Order(n, s)[at..]) <==> n % s <= s / 2
    ensures n % s <= s / 2 ==> Order(n, s)[at..] == PagesAfter(at, n % s)
  {
    LastSignatureFacts(n, s);
    OrderIsFolding(n, s);
    FoldingTailShape(Pad(n, s), n, s, SignatureCount(n, s), n / s, at, n % s);
  }
}

=== FILE: order_properties.dfy ===
/**
  Properties of the signature page order: the guards never skip a slot,
  the result is a permutation of the pages, every full signature follows the
  fixed sheet pairing and is laid out independently of the others, and the
  real pages of a final partial signature come out ascending exactly when
  they fill at most half of it.
 */
module OrderProperties {
  import opened Wrappers
  import opened Counting
  import opened Folding
  import opened SignatureOrder

  /** All slots of `slots` hold a page. */
  ghost predicate AllPages(slots: seq<Slot>)
  {
    forall i :: 0 <= i < |slots| ==> slots[i].Some?
  }

  /** `xs` with `d` added to every element. */
  function Shift(xs: seq<nat>, d: nat): (r: seq<nat>)
    ensures |r| == |xs|
  {
    seq(|xs|, i requires 0 <= i < |xs| => xs[i] + d)
  }

  // ---------------------------------------------------------------------
  // Arithmetic on signature boundaries
  // ---------------------------------------------------------------------

  lemma MulMonotone(a: nat, b: nat, s: nat)
    requires a <= b
    ensures a * s <= b * s
  {
  }

  /** Products with the same positive factor compare as the other factors do. */
  lemma MulCancel(a: nat, b: nat, s: nat)
    requires a * s < b * s
    ensures a < b
  {
    if a >= b {
      MulMonotone(b, a, s);
    }
  }

  /** A signature index below the signature count has all its slots inside the padded list. */
  lemma SignatureInside(n: nat, s: nat, k: nat)
    requires s > 0 && k < SignatureCount(n, s)
    ensures k * s + s <= PaddedLength(n, s)
  {
    MulMonotone(k + 1, SignatureCount(n, s), s);
  }

  /** With `s` not dividing `n`, the last signature is number `n / s` and holds `n % s` real pages. */
  lemma LastSignature(n: nat, s: nat)
    requires s > 0 && n % s != 0
    ensures SignatureCount(n, s) == n / s + 1
    ensures (n / s) * s + n % s == n
  {
    var count, f := SignatureCount(n, s), n / s;
    assert f * s + n % s == n;
    if count <= f {
      MulMonotone(count, f, s);
    }
    if count >= f + 2 {
      MulMonotone(f + 2, count, s);
    }
  }

  // ---------------------------------------------------------------------
  // The `< len(pages)` guards
  // ---------------------------------------------------------------------

  /** Inside the list both guards of every sheet hold: the guarded sheets are the plain ones. */
  lemma {:induction false} SheetsArePairs(pages: seq<Slot>, start: nat, s: nat, h: nat)
    requires h <= s / 2 && start + s <= |pages|
    ensures Sheets(pages, start, s, h) == Pairs(pages, start, s, h)
    decreases h
  {
    if h > 0 {
      SheetsArePairs(pages, start, s, h - 1);
      SheetIsPair(pages, start, s, h, start + s - h, start + h - 1);
    }
  }

  /** Sheet `h - 1` of a signature inside the list passes both guards. */
  lemma SheetIsPair(pages: seq<Slot>, start: nat, s: nat, h: nat, back: nat, front: nat)
    requires 0 < h <= s / 2 && start + s <= |pages| && back == start + s - h && front == start + h - 1
    requires Sheets(pages, start, s, h - 1) == Pairs(pages, start, s, h - 1)
    ensures Sheets(pages, start, s, h) == Pairs(pages, start, s, h)
  {
    assert Sheet(pages, start, s, h - 1) == [pages[back], pages[front]];
    PairsStep(pages, start, s, h, back, front);
  }

  /** Signatures lying inside the list are emitted without any guard failing. */
  lemma {:induction false} SignaturesAreBlocks(pages: seq<Slot>, s: nat, start: nat, k: nat)
    requires start + Span(k, s) <= |pages|
    ensures Signatures(pages, s, start, k) == Blocks(pages, s, start, k)
    decreases k
  {
    if k > 0 {
      SignaturesAreBlocks(pages, s, start + s, k - 1);
      SheetsArePairs(pages, start, s, s / 2);
    }
  }

  /**
    The guards `right_page < len(pages)` and `left_page < len(pages)` never
    fail: every signature lies inside the padded list, so the reordered list
    is the unguarded folding of it.
   */
  lemma GuardsAlwaysHold(n: nat, s: nat)
    requires s > 0
    ensures Span(SignatureCount(n, s), s) == |Pad(n, s)|
    ensures Reordered(n, s) == Blocks(Pad(n, s), s, 0, SignatureCount(n, s))
  {
    SpanIsProduct(SignatureCount(n, s), s);
    SignaturesAreBlocks(Pad(n, s), s, 0, SignatureCount(n, s));
  }

  // ---------------------------------------------------------------------
  // Dropping the blanks
  // ---------------------------------------------------------------------

  lemma {:induction false} DropBlanksAppend(a: seq<Slot>, b: seq<Slot>)
    ensures DropBlanks(a + b) == DropBlanks(a) + DropBlanks(b)
  {
    if |a| > 0 {
      var head := if a[0].Some? then [a[0].value] else [];
      assert (a + b)[0] == a[0];
      assert (a + b)[1..] == a[1..] + b;
      assert DropBlanks(a + b) == head + DropBlanks(a[1..] + b);
      assert DropBlanks(a) == head + DropBlanks(a[1..]);
      DropBlanksAppend(a[1..], b);
      assert head + (DropBlanks(a[1..]) + DropBlanks(b)) == (head + DropBlanks(a[1..])) + DropBlanks(b);
    } else {
      assert a + b == b;
    }
  }

  /** A page occurs in the filtered list as often as its slot occurs in the unfiltered one. */
  lemma {:induction false} DropBlanksCount(slots: seq<Slot>, p: nat)
    ensures Count(DropBlanks(slots), p) == Count(slots, Some(p))
  {
    if |slots| > 0 {
      var head := if slots[0].Some? then [slots[0].value] else [];
      DropBlanksCount(slots[1..], p);
      CountAppend(head, DropBlanks(slots[1..]), p);
      assert slots == [slots[0]] + slots[1..];
      CountAppend([slots[0]], slots[1..], Some(p));
      CountSingle(slots[0], Some(p));
      if slots[0].Some? {
        CountSingle(slots[0].value, p);
      }
    }
  }

  /** On a list without blanks the filter only unwraps the pages. */
  lemma {:induction false} DropBlanksOfPages(slots: seq<Slot>)
    requires AllPages(slots)
    ensures |DropBlanks(slots)| == |slots|
    ensures forall i :: 0 <= i < |slots| ==> DropBlanks(slots)[i] == slots[i].value
  {
    if |slots| > 0 {
      DropBlanksOfPages(slots[1..]);
    }
  }

  lemma {:induction false} DropBlanksOfBlanks(slots: seq<Slot>)
    requires forall i :: 0 <= i < |slots| ==> slots[i] == None
    ensures DropBlanks(slots) == []
  {
    if |slots| > 0 {
      DropBlanksOfBlanks(slots[1..]);
    }
  }

  /** A page is in the filtered list exactly when its slot is in the unfiltered one. */
  lemma DropBlanksMembership(slots: seq<Slot>, p: nat)
    ensures p in DropBlanks(slots) <==> Some(p) in slots
  {
    DropBlanksCount(slots, p);
    CountZeroIffAbsent(DropBlanks(slots), p);
    CountZeroIffAbsent(slots, Some(p));
  }

  /** Dropping the blanks of the padded list gives back the pages `1..n`. */
  lemma PadDropsToPageNumbers(n: nat, s: nat)
    requires s > 0
    ensures DropBlanks(Pad(n, s)) == PageNumbers(n)
  {
    var pages := Pad(n, s);
    var front, back := pages[..n], pages[n..];
    assert pages == front + back;
    DropBlanksOfPages(front);
    assert DropBlanks(front) == PageNumbers(n);
    DropBlanksOfBlanks(back);
    DropBlanksAppend(front, back);
  }

  lemma {:induction false} PageNumbersCount(n: nat, p: nat)
    ensures Count(PageNumbers(n), p) == if 1 <= p <= n then 1 else 0
  {
    if n > 0 {
      assert PageNumbers(n) == PageNumbers(n - 1) + [n];
      PageNumbersCount(n - 1, p);
      CountAppend(PageNumbers(n - 1), [n], p);
      CountSingle(n, p);
    }
  }

  /** Every real page occupies exactly one slot of the padded list. */
  lemma PadCount(n: nat, s: nat, p: nat)
    requires s > 0
    ensures Count(Pad(n, s), Some(p)) == if 1 <= p <= n then 1 else 0
  {
    PadDropsToPageNumbers(n, s);
    DropBlanksCount(Pad(n, s), p);
    PageNumbersCount(n, p);
  }

  // ---------------------------------------------------------------------
  // Permutation
  // ---------------------------------------------------------------------

  /** For an even signature size the reordered list holds every slot of the padded list once. */
  lemma ReorderedCount(n: nat, s: nat, v: Slot)
    requires s > 0 && s % 2 == 0
    ensures Count(Reordered(n, s), v) == Count(Pad(n, s), v)
  {
    var pages := Pad(n, s);
    GuardsAlwaysHold(n, s);
    SpanIsProduct(SignatureCount(n, s), s);
    BlocksCount(pages, s, 0, SignatureCount(n, s), |pages|, v);
    assert pages[0..|pages|] == pages;
  }

  /** For an even signature size the print order is a permutation of the pages `1..n`. */
  lemma OrderIsPermutation(n: nat, s: nat)
    requires s > 0 && s % 2 == 0
    ensures multiset(Order(n, s)) == multiset(PageNumbers(n))
  {
    forall p: nat
      ensures Count(Order(n, s), p) == Count(PageNumbers(n), p)
    {
      ReorderedCount(n, s, Some(p));
      DropBlanksCount(Reordered(n, s), p);
      PadCount(n, s, p);
      PageNumbersCount(n, p);
    }
    SameCountsSameMultiset(Order(n, s), PageNumbers(n));
  }

  /**
    For an even signature size the print order lists each page `1..n`
    exactly once: it has `n` entries, holds exactly the pages `1..n`, and no
    two positions hold the same page.
   */
  lemma OrderListsEveryPageOnce(n: nat, s: nat)
    requires s > 0 && s % 2 == 0
    ensures |Order(n, s)| == n
    ensures forall p :: p in Order(n, s) <==> 1 <= p <= n
    ensures forall i, j :: 0 <= i < j < |Order(n, s)| ==> Order(n, s)[i] != Order(n, s)[j]
  {
    var order := Order(n, s);
    OrderIsPermutation(n, s);
    assert |order| == |multiset(order)| == |multiset(PageNumbers(n))| == n;
    forall p
      ensures p in order <==> 1 <= p <= n
    {
      assert p in order <==> p in multiset(order);
      assert p in PageNumbers(n) <==> p in multiset(PageNumbers(n));
      if 1 <= p <= n {
        assert PageNumbers(n)[p - 1] == p;
      }
    }
    forall i, j | 0 <= i < j < |order|
      ensures order[i] != order[j]
    {
      if order[i] == order[j] {
        TwoPositionsCountTwice(order, i, j);
        CountIsMultiplicity(order, order[i]);
        CountIsMultiplicity(PageNumbers(n), order[i]);
        PageNumbersCount(n, order[i]);
        assert false;
      }
    }
  }

  /** No pages print nothing; a single page prints alone. */
  lemma EmptyAndSinglePage(s: nat)
    requires s > 0 && s % 2 == 0
    ensures Order(0, s) == []
    ensures Order(1, s) == [1]
  {
    OrderListsEveryPageOnce(0, s);
    OrderListsEveryPageOnce(1, s);
    assert 1 in Order(1, s);
  }

  // ---------------------------------------------------------------------
  // Any signature size
  // ---------------------------------------------------------------------

  /** For any signature size each page `1..n` is printed at most once, and no other number at all. */
  lemma OrderCountAtMostOnce(n: nat, s: nat, p: nat)
    requires s > 0
    ensures Count(Order(n, s), p) <= if 1 <= p <= n then 1 else 0
  {
    var pages := Pad(n, s);
    GuardsAlwaysHold(n, s);
    BlocksCountAtMost(pages, s, 0, SignatureCount(n, s), |pages|, Some(p));
    assert pages[0..|pages|] == pages;
    DropBlanksCount(Reordered(n, s), p);
    PadCount(n, s, p);
  }

  /** For any signature size the print order holds only pages `1..n`, none of them twice. */
  lemma OrderHasNoRepeats(n: nat, s: nat)
    requires s > 0
    ensures |Order(n, s)| <= n
    ensures forall p :: p in Order(n, s) ==> 1 <= p <= n
    ensures forall i, j :: 0 <= i < j < |Order(n, s)| ==> Order(n, s)[i] != Order(n, s)[j]
  {
    var order := Order(n, s);
    forall p: nat | p in order
      ensures 1 <= p <= n
    {
      OrderCountAtMostOnce(n, s, p);
      CountZeroIffAbsent<nat>(order, p);

    }
    forall i, j | 0 <= i < j < |order|
      ensures order[i] != order[j]
    {
      if order[i] == order[j] {
        TwoPositionsCountTwice(order, i, j);
        OrderCountAtMostOnce(n, s, order[i]);
        assert false;
      }
    }
    forall p: nat
      ensures Count(order, p) <= Count(PageNumbers(n), p)
    {
      OrderCountAtMostOnce(n, s, p);
      PageNumbersCount(n, p);
    }
    FewerCountsShorter(order, PageNumbers(n));
  }

  /**
    With an odd signature size `s` the middle page `at + s / 2 + 1` of the
    signature starting at `at` is never printed.
   */
  lemma OddSizeSkipsMiddle(n: nat, s: nat, k: nat, at: nat)
    requires s % 2 == 1 && at == k * s && at + s / 2 < n
    ensures at + s / 2 + 1 !in Order(n, s)
  {
    var count := SignatureCount(n, s);
    SignatureHolding(n, s, k, at, at + s / 2);
    GuardsAlwaysHold(n, s);
    PadCount(n, s, at + s / 2 + 1);
    MiddleMissing(Pad(n, s), Reordered(n, s), s, count, k, at, at + s / 2);
  }

  /** The signature `k` starting at `at` that holds slot `j < n` is one of the signatures. */
  lemma SignatureHolding(n: nat, s: nat, k: nat, at: nat, j: nat)
    requires s > 0 && at == k * s && at <= j < n
    ensures k < SignatureCount(n, s) && at == Span(k, s)
  {
    MulCancel(k, SignatureCount(n, s), s);
    SpanIsProduct(k, s);
  }

  /** The middle page of an odd signature has no slot in the reordered list. */
  lemma MiddleMissing(pages: seq<Slot>, reordered: seq<Slot>, s: nat, count: nat, k: nat, at: nat, mid: nat)
    requires s % 2 == 1 && k < count && at == Span(k, s) && Span(count, s) == |pages| && mid == at + s / 2
    requires reordered == Blocks(pages, s, 0, count) && mid < |pages|
    requires pages[mid] == Some(mid + 1) && Count(pages, Some(mid + 1)) == 1
    ensures mid + 1 !in DropBlanks(reordered)
  {
    var p: nat := mid + 1;
    BlocksMissMiddle(pages, s, count, k, count - k - 1, at, mid, at + s, Some(mid + 1));
    DropBlanksCount(reordered, p);
    CountZeroIffAbsent<nat>(DropBlanks(reordered), p);
  }
}

=== FILE: paths.dfy ===
/**
  The two ways the tool takes a file path apart: `os.path.splitext` in the
  standalone script and `pathlib`'s name, stem and suffix in the command-line
  front end. Paths are POSIX paths with `/` as the only separator.
 */
module Paths {

  /** The index of the last `c` in `p`, or -1 when there is none. */
  function LastIndexOf(p: string, c: char): (i: int)
    ensures -1 <= i < |p|
    ensures i >= 0 ==> p[i] == c
    ensures forall j :: i < j < |p| ==> p[j] != c
  {
    if |p| == 0 then -1
    else if p[|p| - 1] == c then |p| - 1
    else LastIndexOf(p[..|p| - 1], c)
  }

  /** All of `p[from..to]` is dots. */
  predicate AllDots(p: string, from: int, to: int)
    requires 0 <= from <= to <= |p|
  {
    forall j :: from <= j < to ==> p[j] == '.'
  }

  /** The last path component of `p` holds a character other than a dot. */
  predicate NamedComponent(p: string)
  {
    exists j :: 0 <= j < |p| && p[j] != '.' && '/' !in p[j..]
  }

  /** Some dot in the last path component of `p` comes after a character other than a dot. */
  predicate HasExtension(p: string)
  {
    exists i, j :: 0 <= i < j < |p| && p[i] != '.' && p[j] == '.' && '/' !in p[i..]
  }

  /**
    `os.path.splitext`: the extension is the part from the last dot of the
    last path component, provided something other than dots precedes that
    dot inside the component; otherwise there is none.
   */
  function SplitExtension(p: string): (r: (string, string))
    ensures r.0 + r.1 == p
    ensures r.1 == [] || (r.1[0] == '.' && '.' !in r.1[1..] && '/' !in r.1)
    ensures r.1 != [] <==> HasExtension(p)
    ensures r.1 != [] ==> NamedComponent(r.0)
  {
    var slash, dot := LastIndexOf(p, '/'), LastIndexOf(p, '.');
    ExtensionAfterLastSlash(p);
    if dot > slash && !AllDots(p, slash + 1, dot) then
      assert '.' !in p[dot..][1..];
      assert '/' !in p[dot..];
      (p[..dot], p[dot..])
    else
      assert p + [] == p;
      (p, [])
  }

  /** The directory part of a path: everything up to and including its last `/`. */
  function Directory(p: string): (d: string)
    ensures |d| <= |p| && d == p[..|d|]
    ensures d == [] || d[|d| - 1] == '/'
    ensures '/' !in p[|d|..]
  {
    p[..LastIndexOf(p, '/') + 1]
  }

  /** `PurePath.name`: the last path component. */
  function Name(p: string): (name: string)
    ensures Directory(p) + name == p
    ensures '/' !in name
  {
    p[|Directory(p)|..]
  }

  /** The index of the dot that starts `name`'s suffix, when it has one. */
  function SuffixDot(name: string): int
  {
    LastIndexOf(name, '.')
  }

  /** A name has a suffix when its last dot is neither its first nor its last character. */
  predicate HasSuffix(name: string)
  {
    0 < SuffixDot(name) < |name| - 1
  }

  /** The dot at index `i` of `name` is neither its first nor its last character, and no dot follows it. */
  predicate DotOpensSuffix(name: string, i: int)
  {
    0 < i < |name| - 1 && name[i] == '.' && '.' !in name[i + 1..]
  }

  /** `PurePath.suffix`: from the last dot on, or nothing. */
  function Suffix(name: string): (suffix: string)
    ensures suffix == [] || (|suffix| >= 2 && suffix[0] == '.' && '.' !in suffix[1..])
    ensures |suffix| <= |name| && suffix == name[|name| - |suffix|..]
    ensures suffix != [] <==> exists i :: DotOpensSuffix(name, i)
  {
    SuffixDotOpensSuffix(name);
    if HasSuffix(name) then name[SuffixDot(name)..] else []
  }

  /** `PurePath.stem`: the name without its suffix. */
  function Stem(name: string): (stem: string)
    ensures stem + Suffix(name) == name
    ensures HasSuffix(name) ==> |stem| > 0
  {
    if HasSuffix(name) then name[..SuffixDot(name)] else name
  }

  /** `PurePath.with_stem` on a name: the new stem followed by the old suffix. */
  function WithStem(name: string, stem: string): string
  {
    stem + Suffix(name)
  }

  // ---------------------------------------------------------------------
  // Facts about the splits
  // ---------------------------------------------------------------------

  /** `p` has an extension exactly when its last dot follows its last slash and a non-dot lies between them. */
  lemma ExtensionAfterLastSlash(p: string)
    ensures var slash, dot := LastIndexOf(p, '/'), LastIndexOf(p, '.');
      (HasExtension(p) <==> dot > slash && !AllDots(p, slash + 1, dot)) &&
      (HasExtension(p) ==> 0 <= dot && NamedComponent(p[..dot]))
  {
    var slash, dot := LastIndexOf(p, '/'), LastIndexOf(p, '.');
    if HasExtension(p) {
      var i, j :| 0 <= i < j < |p| && p[i] != '.' && p[j] == '.' && '/' !in p[i..];
      assert p[i..][j - i] == p[j];
      assert slash < i && j <= dot;
    }
    if dot > slash && !AllDots(p, slash + 1, dot) {
      var k :| slash + 1 <= k < dot && p[k] != '.';
      assert p[k..][dot - k] == p[dot];
      assert p[..dot][k] == p[k] && '/' !in p[..dot][k..];
    }
  }

  /** A name has a suffix exactly when one of its dots opens a suffix. */
  lemma SuffixDotOpensSuffix(name: string)
    ensures HasSuffix(name) <==> exists i :: DotOpensSuffix(name, i)
  {
    var dot := SuffixDot(name);
    if HasSuffix(name) {
      var tail := name[dot + 1..];
      assert forall j :: 0 <= j < |tail| ==> tail[j] == name[dot + 1 + j];
      assert DotOpensSuffix(name, dot);
    }
    if exists i :: DotOpensSuffix(name, i) {
      var i :| DotOpensSuffix(name, i);
      assert forall j :: i < j < |name| ==> name[j] == name[i + 1..][j - i - 1];
      LastIndexUnique(name, '.', i);
    }
  }

  /** The last occurrence is the one position holding `c` with none after it. */
  lemma LastIndexUnique(p: string, c: char, i: int)
    requires -1 <= i < |p| && (i >= 0 ==> p[i] == c) && forall j :: i < j < |p| ==> p[j] != c
    ensures LastIndexOf(p, c) == i
  {
  }

  /** A tail without `c` leaves the last `c` where it was; a tail with one moves it there. */
  lemma LastIndexOfAppend(a: string, b: string, c: char)
    ensures LastIndexOf(a + b, c) == if c in b then |a| + LastIndexOf(b, c) else LastIndexOf(a, c)
  {
    var p := a + b;
    if c in b {
      var k := LastIndexOf(b, c);
      LastIndexUnique(p, c, |a| + k);
    } else {
      var k := LastIndexOf(a, c);
      assert forall j :: |a| <= j < |p| ==> p[j] == b[j - |a|];
      LastIndexUnique(p, c, k);
    }
  }

  /** A directory part ending in `/` followed by a name without `/` splits back into the two. */
  lemma SplitAtDirectory(dir: string, name: string)
    requires (dir == [] || dir[|dir| - 1] == '/') && '/' !in name
    ensures Directory(dir + name) == dir && Name(dir + name) == name
  {
    LastIndexOfAppend(dir, name, '/');
    if dir != [] {
      LastIndexUnique(dir, '/', |dir| - 1);
    }
    assert (dir + name)[..|dir|] == dir;
  }

  /**
    A path `root + ext`, whose `ext` is a dot followed by neither a dot nor a
    slash and whose root ends in a component that is not all dots, loses
    exactly `ext` to `os.path.splitext`.
   */
  lemma ExtensionSplit(root: string, ext: string)
    requires NamedComponent(root)
    requires |ext| > 0 && ext[0] == '.' && '.' !in ext[1..] && '/' !in ext
    ensures SplitExtension(root + ext) == (root, ext)
  {
    var p := root + ext;
    var dot := |root|;
    var j :| 0 <= j < |root| && root[j] != '.' && '/' !in root[j..];
    assert '.' in ext;
    LastIndexOfAppend(root, ext, '.');
    LastIndexUnique(ext, '.', 0);
    assert forall k :: j <= k < |p| ==> p[k] != '/' by {
      forall k | j <= k < |p|
        ensures p[k] != '/'
      {
        if k < |root| {
          assert root[j..][k - j] == root[k];
        }
      }
    }
    assert p[j] == root[j];
    assert p[..dot] == root && p[dot..] == ext;
  }

  /** The stem and suffix of a name without `/` have none either. */
  lemma StemAndSuffixHaveNoSlash(name: string)
    requires '/' !in name
    ensures '/' !in Stem(name) && '/' !in Suffix(name)
  {
    var stem, suffix := Stem(name), Suffix(name);
    assert forall j :: 0 <= j < |stem| ==> stem[j] == name[j];
    assert forall j :: 0 <= j < |suffix| ==> suffix[j] == name[|stem| + j];
  }

  /**
    Appending a `tag` without dots to the stem of a name that does not end
    in a dot keeps the name's suffix, and the new stem is the old one with
    the tag.
   */
  lemma TaggedStem(name: string, tag: string)
    requires name != [] && name[|name| - 1] != '.' && '.' !in tag
    ensures Suffix(WithStem(name, Stem(name) + tag)) == Suffix(name)
    ensures Stem(WithStem(name, Stem(name) + tag)) == Stem(name) + tag
  {
    var stem, suffix := Stem(name), Suffix(name);
    var tagged := stem + tag + suffix;
    if HasSuffix(name) {
      assert '.' in suffix;
      LastIndexOfAppend(stem + tag, suffix, '.');
      LastIndexUnique(suffix, '.', 0);
      assert tagged[|stem + tag|..] == suffix && tagged[..|stem + tag|] == stem + tag;
    } else {
      assert tagged == name + tag;
      LastIndexOfAppend(name, tag, '.');
      assert tagged + [] == tagged;
    }
  }

  /** The name `stem + ext` of a non-empty stem, dots allowed, and a one-dot extension has that stem and suffix. */
  lemma StemAndSuffixOf(stem: string, ext: string)
    requires |stem| > 0 && |ext| >= 2 && ext[0] == '.' && '.' !in ext[1..]
    ensures Stem(stem + ext) == stem && Suffix(stem + ext) == ext
  {
    var name := stem + ext;
    assert '.' in ext;
    LastIndexOfAppend(stem, ext, '.');
    LastIndexUnique(ext, '.', 0);
    assert name[..|stem|] == stem && name[|stem|..] == ext;
  }
}

=== FILE: signature_order.dfy ===
/**
  The signature (section-binding) page-order algorithm shared by both
  `calculate_signature_order` functions of the tool.

  The page list `1..n` is padded with blanks up to a multiple of the
  signature size `s`; every signature is then emitted sheet by sheet, the
  back slot first and the front slot second, and finally the blanks are
  dropped.  The definitions here take any positive `s`; validation of `s`
  belongs to the callers.
 */
module SignatureOrder {
  import opened Wrappers

  /** One slot of the padded page list: a 1-based page number or a blank. */
  type Slot = Option<nat>

  /** The pages `1..n` in reading order. */
  function PageNumbers(n: nat): seq<nat>
  {
    seq(n, j => j + 1)
  }

  /** The number of signatures, `ceil(n / s)`, computed as `(n + s - 1) // s`. */
  function SignatureCount(n: nat, s: nat): (count: nat)
    requires s > 0
    ensures n <= count * s < n + s
    ensures count == 0 <==> n == 0
  {
    var q := (n + s - 1) / s;
    assert n + s - 1 == q * s + (n + s - 1) % s;
    q
  }

  /** The padded length: the least multiple of `s` that is at least `n`. */
  function PaddedLength(n: nat, s: nat): nat
    requires s > 0
  {
    SignatureCount(n, s) * s
  }

  /** The page list `1..n` followed by blanks up to the padded length. */
  function Pad(n: nat, s: nat): (pages: seq<Slot>)
    requires s > 0
    ensures |pages| == PaddedLength(n, s)
    ensures forall j :: 0 <= j < |pages| ==> pages[j] == if j < n then Some(j + 1) else None
  {
    seq(n, j => Some(j + 1)) + seq(PaddedLength(n, s) - n, _ => None)
  }

  /** The slot at index `j`, or nothing when `j` lies past the end of the list. */
  function SlotAt(pages: seq<Slot>, j: nat): seq<Slot>
  {
    if j < |pages| then [pages[j]] else []
  }

  /** Sheet `i` of the signature starting at `start`: its back slot, then its front slot. */
  function Sheet(pages: seq<Slot>, start: nat, s: nat, i: nat): seq<Slot>
    requires i < s / 2
  {
    SlotAt(pages, start + s - 1 - i) + SlotAt(pages, start + i)
  }

  /** The first `h` sheets of the signature starting at `start`. */
  function Sheets(pages: seq<Slot>, start: nat, s: nat, h: nat): seq<Slot>
    requires h <= s / 2
    decreases h
  {
    if h == 0 then []
    else Sheets(pages, start, s, h - 1) + Sheet(pages, start, s, h - 1)
  }

  /** The output of one signature: all `s // 2` of its sheets. */
  function Block(pages: seq<Slot>, start: nat, s: nat): seq<Slot>
  {
    Sheets(pages, start, s, s / 2)
  }

  /** The `k` signatures that begin at slot `start`, one after the other. */
  function Signatures(pages: seq<Slot>, s: nat, start: nat, k: nat): seq<Slot>
    decreases k
  {
    if k == 0 then []
    else Block(pages, start, s) + Signatures(pages, s, start + s, k - 1)
  }

  /**
    The padded page list reordered signature by signature, blanks still in
    place: one signature for every start `0, s, 2s, ...` below the padded length.
   */
  function Reordered(n: nat, s: nat): seq<Slot>
    requires s > 0
  {
    Signatures(Pad(n, s), s, 0, SignatureCount(n, s))
  }

  /** The page numbers of `slots`, in order, with the blanks removed. */
  function DropBlanks(slots: seq<Slot>): (r: seq<nat>)
    ensures |r| <= |slots|
  {
    if |slots| == 0 then []
    else
      var head := if slots[0].Some? then [slots[0].value] else [];
      assert slots == [slots[0]] + slots[1..];
      head + DropBlanks(slots[1..])
  }

  /** The print order of the pages `1..n` for signatures of `s` pages. */
  function Order(n: nat, s: nat): seq<nat>
    requires s > 0
  {
    DropBlanks(Reordered(n, s))
  }
}

=== FILE: standalone.dfy ===
/**
  The standalone script: its unvalidated copy of the page-order calculation,
  the signature-size checks of its `main`, its default output name, and the
  number of pages it writes.
 */
module Standalone {
  import opened Wrappers
  import opened SignatureOrder
  import opened OrderProperties
  import opened Paths
  import Core

  /** The one way the unvalidated calculation fails: `// signature_size` with a zero size. */
  datatype CalculationError = ZeroDivision

  /**
    The unvalidated page order. A zero size divides by zero; a negative size
    makes the sheet loop `range(s // 2)` empty, so nothing is printed; a
    positive size of any parity gives the signature order.
   */
  function StandaloneOrder(totalPages: int, s: int): (r: Result<seq<nat>, CalculationError>)
    ensures r.Failure? <==> s == 0
    ensures s < 0 ==> r == Success([])
    ensures r.Success? ==> forall p :: p in r.value ==> 1 <= p <= totalPages
    ensures r.Success? ==> forall i, j :: 0 <= i < j < |r.value| ==> r.value[i] != r.value[j]
    ensures s > 0 && s % 2 == 0 ==> r.Success? && |r.value| == Core.PagesListed(totalPages)
  {
    if s == 0 then Failure(ZeroDivision)
    else if s < 0 then Success([])
    else
      var n := Core.PagesListed(totalPages);
      OrderHasNoRepeats(n, s);
      if s % 2 == 0 then
        OrderListsEveryPageOnce(n, s);
        Success(Order(n, s))
      else
        Success(Order(n, s))
  }

  /**
    The two Python copies of the calculation have the same body, so both are
    modelled by the one `Order`; this records that, for a positive multiple
    of four, the script's result is the package's.
   */
  lemma CopiesAgree(totalPages: int, s: int)
    requires s > 0 && s % 4 == 0
    ensures StandaloneOrder(totalPages, s).Success? && Core.CalculateSignatureOrder(totalPages, s).Success?
    ensures StandaloneOrder(totalPages, s).value == Core.CalculateSignatureOrder(totalPages, s).value
  {
  }

  /**
    Where the validated copy refuses a positive size, the unvalidated one
    still answers: an even size still prints every page once, an odd size
    loses the middle page of every signature holding one.
   */
  lemma UnvalidatedSizes(totalPages: int, s: int, k: nat, at: nat)
    requires s > 0 && s % 4 != 0 && at == k * s
    ensures Core.CalculateSignatureOrder(totalPages, s).Failure? && StandaloneOrder(totalPages, s).Success?
    ensures s % 2 == 0 ==> |StandaloneOrder(totalPages, s).value| == Core.PagesListed(totalPages)
    ensures s % 2 == 1 && at + s / 2 < totalPages ==> at + s / 2 + 1 !in StandaloneOrder(totalPages, s).value
  {
    if s % 2 == 1 && at + s / 2 < totalPages {
      OddSizeSkipsMiddle(Core.PagesListed(totalPages), s, k, at);
    }
  }

  // ---------------------------------------------------------------------
  // The checks of `main`
  // ---------------------------------------------------------------------

  /** Why `main` refuses a signature size; a non-multiple of four comes with two suggestions. */
  datatype SizeRejection = NotMultipleOfFour(lower: int, higher: int) | BelowFour | AboveMaximum

  /** The largest signature size `main` accepts. */
  const MaxSignatureSize: int := 128

  /**
    The size checks of `main`, in their order: multiple of four (suggesting
    the multiples of four just below and just above), then at least 4, then
    at most 128.
   */
  function CheckSignatureSize(s: int): (r: Option<SizeRejection>)
    ensures r == None <==> s % 4 == 0 && 4 <= s <= MaxSignatureSize
    ensures r.Some? && r.value.NotMultipleOfFour? <==> s % 4 != 0
    ensures r.Some? && r.value.NotMultipleOfFour? ==>
              r.value.lower % 4 == 0 && r.value.higher == r.value.lower + 4 && r.value.lower < s < r.value.higher
    ensures r == Some(BelowFour) <==> s % 4 == 0 && s < 4
    ensures r == Some(AboveMaximum) <==> s % 4 == 0 && s > MaxSignatureSize
  {
    if s % 4 != 0 then Some(NotMultipleOfFour((s / 4) * 4, (s / 4 + 1) * 4))
    else if s < 4 then Some(BelowFour)
    else if s > MaxSignatureSize then Some(AboveMaximum)
    else None
  }

  // ---------------------------------------------------------------------
  // The default output name
  // ---------------------------------------------------------------------

  /** The suffix the script gives its default output name. */
  const BoundSuffix: string := "_section_bound.pdf"

  /** The default output of `main`: the input without its extension, followed by `_section_bound.pdf`. */
  function StandaloneOutputName(input: string): (out: string)
    ensures |BoundSuffix| <= |out| && out[|out| - |BoundSuffix|..] == BoundSuffix
    ensures out == input + BoundSuffix <==> !HasExtension(input)
  {
    SplitExtension(input).0 + BoundSuffix
  }

  /**
    A path with an extension, such as `my.book.pdf`, keeps everything before
    its last dot, earlier dots included.
   */
  lemma ExtensionReplaced(root: string, ext: string)
    requires NamedComponent(root)
    requires |ext| > 0 && ext[0] == '.' && '.' !in ext[1..] && '/' !in ext
    ensures StandaloneOutputName(root + ext) == root + BoundSuffix
  {
    ExtensionSplit(root, ext);
  }

  // ---------------------------------------------------------------------
  // The run
  // ---------------------------------------------------------------------

  /** Why `main` stops: a refused size, or an input that does not exist; every stop exits with status 1. */
  datatype Stop = RefusedSize(rejection: SizeRejection) | InputMissing

  /** The settings `main` hands to the reordering once its checks pass. */
  datatype Run = Run(input: string, output: string, signatureSize: int)

  /**
    `main` up to the reordering: the size checks first, then the input's
    existence (an outcome of the file system, passed in), then the default
    output name when none is given.
   */
  function MainRun(input: string, output: Option<string>, s: int, inputExists: bool): (r: Result<Run, Stop>)
    ensures r.Success? <==> s % 4 == 0 && 4 <= s <= MaxSignatureSize && inputExists
    ensures CheckSignatureSize(s).Some? ==> r == Failure(RefusedSize(CheckSignatureSize(s).value))
    ensures CheckSignatureSize(s).None? && !inputExists ==> r == Failure(InputMissing)
    ensures r.Success? ==> r.value.input == input && r.value.signatureSize == s
    ensures r.Success? ==> r.value.output == if output.Some? && output.value != [] then output.value else StandaloneOutputName(input)
  {
    match CheckSignatureSize(s)
    case Some(rejection) => Failure(RefusedSize(rejection))
    case None =>
      if !inputExists then Failure(InputMissing)
      else
        var out := if output.Some? && output.value != [] then output.value else StandaloneOutputName(input);
        Success(Run(input, out, s))
  }

  /** The pages the reordering writes: one for each page of the order, so `totalPages` for an accepted size. */
  lemma PagesWritten(totalPages: nat, s: int)
    requires s % 4 == 0 && 4 <= s
    ensures StandaloneOrder(totalPages, s).Success?
    ensures |Core.CopiedPages(StandaloneOrder(totalPages, s).value, totalPages)| == totalPages
  {
    var order := Order(totalPages, s);
    assert |order| == totalPages by {
      OrderListsEveryPageOnce(totalPages, s);
    }
    OrderHasNoRepeats(totalPages, s);
    Core.CopyKeepsEveryPage(order, totalPages);
    assert StandaloneOrder(totalPages, s) == Success(order);
  }
}

=== FILE: worked_cases.dfy ===
/**
  Worked cases of the print order, each derived from the general layout
  lemmas: full signatures from the fixed sheet pairing, a short final
  signature from the partial-signature shape. Each case names its page
  count `n` and signature size `s` as parameters fixed by its precondition.
 */
module WorkedCases {
  import opened SignatureOrder
  import opened OrderProperties
  import opened Layout
  import opened Counting
  import opened Wrappers

  /** Every place of the full signature `k` of four pages, by its sheet pairing. */
  lemma FourPageSignature(n: nat, s: nat, k: nat, at: nat)
    requires s == 4 && at == k * s && at + s <= n
    ensures at + 4 <= |Order(n, s)|
    ensures Order(n, s)[at..at + 4] == [at + 4, at + 1, at + 3, at + 2]
  {
    SheetPairing(n, s, k, at, 0);
    SheetPairing(n, s, k, at, 1);
  }

  /** Every place of the full signature `k` of eight pages, by its sheet pairing. */
  lemma EightPageSignature(n: nat, s: nat, k: nat, at: nat)
    requires s == 8 && at == k * s && at + s <= n
    ensures at + 8 <= |Order(n, s)|
    ensures Order(n, s)[at..at + 8] == [at + 8, at + 1, at + 7, at + 2, at + 6, at + 3, at + 5, at + 4]
  {
    SheetPairing(n, s, k, at, 0);
    SheetPairing(n, s, k, at, 1);
    SheetPairing(n, s, k, at, 2);
    SheetPairing(n, s, k, at, 3);
  }

  /**
    A final signature holding `r` real pages, at most half of it, lists
    them in reading order after the `k` full signatures.
   */
  lemma ShortLastSignature(n: nat, s: nat, k: nat, at: nat, r: nat)
    requires s > 0 && s % 2 == 0 && at == k * s && n == at + r && 0 < r <= s / 2
    ensures at <= |Order(n, s)| && Order(n, s)[at..] == PagesAfter(at, r)
  {
    assert n / s == k && n % s == r by {
      DivisionOfRemainder(n, s, k, r);
    }
    PartialSignature(n, s, at);
  }

  /** Division by `s` recovers the quotient and remainder it was built from. */
  lemma DivisionOfRemainder(n: nat, s: nat, k: nat, r: nat)
    requires s > 0 && n == k * s + r && r < s
    ensures n / s == k && n % s == r
  {
    var q, m := n / s, n % s;
    assert q * s + m == k * s + r;
    if q < k {
      assert (q + 1) * s <= k * s by { MulMonotone(q + 1, k, s); }
      assert false;
    } else if q > k {
      assert (k + 1) * s <= q * s by { MulMonotone(k + 1, q, s); }
      assert false;
    }
  }

  /** The first signature of four pages, when there are at least four. */
  lemma FirstFourPages(n: nat, s: nat)
    requires s == 4 && 4 <= n
    ensures 4 <= |Order(n, s)| && Order(n, s)[..4] == [4, 1, 3, 2]
  {
    SheetPairing(n, s, 0, 0, 0);
    SheetPairing(n, s, 0, 0, 1);
  }

  /** The second signature of four pages, when there are at least eight. */
  lemma SecondFourPages(n: nat, s: nat)
    requires s == 4 && 8 <= n
    ensures 8 <= |Order(n, s)| && Order(n, s)[4..8] == [8, 5, 7, 6]
  {
    SheetPairing(n, s, 1, 4, 0);
    SheetPairing(n, s, 1, 4, 1);
  }

  /** The first signature of eight pages, when there are at least eight. */
  lemma FirstEightPages(n: nat, s: nat)
    requires s == 8 && 8 <= n
    ensures 8 <= |Order(n, s)| && Order(n, s)[..8] == [8, 1, 7, 2, 6, 3, 5, 4]
  {
    SheetPairing(n, s, 0, 0, 0);
    SheetPairing(n, s, 0, 0, 1);
    SheetPairing(n, s, 0, 0, 2);
    SheetPairing(n, s, 0, 0, 3);
  }

  /** Four pages in one signature of four: one sheet, page 4 and page 1 on its outside. */
  lemma FourPagesInFour(n: nat, s: nat)
    requires n == 4 && s == 4
    ensures Order(n, s) == [4, 1, 3, 2]
  {
    OrderListsEveryPageOnce(n, s);
    FirstFourPages(n, s);
    Whole(Order(n, s), 4);
  }

  /** Eight pages in signatures of four: two sheets per signature, back page first. */
  lemma EightPagesInFours(n: nat, s: nat)
    requires n == 8 && s == 4
    ensures Order(n, s) == [4, 1, 3, 2] + [8, 5, 7, 6]
  {
    OrderListsEveryPageOnce(n, s);
    FirstFourPages(n, s);
    SecondFourPages(n, s);
    JoinedWhole(Order(n, s), 4, 8, [4, 1, 3, 2], [8, 5, 7, 6]);
  }

  /** One signature of eight pages: the outer sheet carries pages 8 and 1. */
  lemma EightPagesInEight(n: nat, s: nat)
    requires n == 8 && s == 8
    ensures Order(n, s) == [8, 1, 7, 2, 6, 3, 5, 4]
  {
    OrderListsEveryPageOnce(n, s);
    FirstEightPages(n, s);
    Whole(Order(n, s), 8);
  }

  /**
    Six pages in signatures of four: one full signature, then a final one
    holding two real pages, at most half of it, which come out in reading order.
   */
  lemma SixPagesInFours(n: nat, s: nat)
    requires n == 6 && s == 4
    ensures Order(n, s) == [4, 1, 3, 2] + [5, 6]
  {
    ShortLastSignature(n, s, 1, 4, 2);
    TwoPagesAfter(4);
    FirstFourPages(n, s);
    Joined(Order(n, s), 4, [4, 1, 3, 2], [5, 6]);
  }

  /**
    Six pages in one signature of eight: the two blanks fall on the back of
    the outer two sheets, so the six real pages fill more than half of the
    signature and do not come out in reading order.
   */
  lemma SixPagesInEight(n: nat, s: nat)
    requires n == 6 && s == 8
    ensures Order(n, s) == [1, 2, 6, 3, 5, 4]
    ensures !Increasing(Order(n, s))
  {
    var pages := Pad(n, s);
    assert Reordered(n, s) == Sheets(pages, 0, s, 4);
    SixInEightSheets(n, s);
    SheetsDropStep(pages, s, 1);
    assert DropBlanks(Sheets(pages, 0, s, 1)) == [1];
    SheetsDropStep(pages, s, 2);
    assert DropBlanks(Sheets(pages, 0, s, 2)) == [1, 2];
    SheetsDropStep(pages, s, 3);
    assert DropBlanks(Sheets(pages, 0, s, 3)) == [1, 2, 6, 3];
    SheetsDropStep(pages, s, 4);
    var order := Order(n, s);
    assert order == [1, 2, 6, 3, 5, 4];
    assert order[2] == 6 && order[3] == 3;
  }

  /** The four sheets of six pages in a signature of eight, blanks dropped. */
  lemma SixInEightSheets(n: nat, s: nat)
    requires n == 6 && s == 8
    ensures DropBlanks(Sheet(Pad(n, s), 0, s, 0)) == [1]
    ensures DropBlanks(Sheet(Pad(n, s), 0, s, 1)) == [2]
    ensures DropBlanks(Sheet(Pad(n, s), 0, s, 2)) == [6, 3]
    ensures DropBlanks(Sheet(Pad(n, s), 0, s, 3)) == [5, 4]
  {
    LeadingSheet(n, s, 0);
    LeadingSheet(n, s, 1);
    LeadingSheet(n, s, 2);
    LeadingSheet(n, s, 3);
  }

  /** With the first `h - 1` sheets dropped, sheet `h - 1` follows on. */
  lemma SheetsDropStep(pages: seq<Slot>, s: nat, h: nat)
    requires 0 < h <= s / 2
    ensures DropBlanks(Sheets(pages, 0, s, h)) == DropBlanks(Sheets(pages, 0, s, h - 1)) + DropBlanks(Sheet(pages, 0, s, h - 1))
  {
    DropBlanksAppend(Sheets(pages, 0, s, h - 1), Sheet(pages, 0, s, h - 1));
  }

  /**
    Sheet `i` of the first signature of the padded list prints its back page
    `s - i` when that is a real page, then its front page `i + 1`.
   */
  lemma LeadingSheet(n: nat, s: nat, i: nat)
    requires 0 < s && i < s / 2 && i < n
    ensures DropBlanks(Sheet(Pad(n, s), 0, s, i)) == (if s - i <= n then [s - i] else []) + [i + 1]
  {
    var pages := Pad(n, s);
    assert s <= |pages| by {
      MulMonotone(1, SignatureCount(n, s), s);
    }
    var slots := Sheet(pages, 0, s, i);
    assert slots == [pages[s - 1 - i], pages[i]];
    assert slots[1..] == [pages[i]];
    assert DropBlanks([pages[i]]) == [i + 1];
  }

  /** Five pages in signatures of three: the middle pages 2 and 5 of the two signatures are lost. */
  lemma FivePagesInThrees(n: nat, s: nat)
    requires n == 5 && s == 3
    ensures 2 !in Order(n, s) && 5 !in Order(n, s)
  {
    OddSizeSkipsMiddle(n, s, 0, 0);
    OddSizeSkipsMiddle(n, s, 1, 3);
  }

  /** Ten pages in signatures of four: two full signatures, then pages 9 and 10 in order. */
  lemma TenPagesInFours(n: nat, s: nat)
    requires n == 10 && s == 4
    ensures Order(n, s) == [4, 1, 3, 2] + [8, 5, 7, 6] + [9, 10]
  {
    ShortLastSignature(n, s, 2, 8, 2);
    TwoPagesAfter(8);
    FirstFourPages(n, s);
    SecondFourPages(n, s);
    Joined3(Order(n, s), 4, 8, [4, 1, 3, 2], [8, 5, 7, 6], [9, 10]);
  }

  /** Twelve pages in signatures of eight: one full signature, then pages 9 to 12 in order. */
  lemma TwelvePagesInEights(n: nat, s: nat)
    requires n == 12 && s == 8
    ensures Order(n, s) == [8, 1, 7, 2, 6, 3, 5, 4] + [9, 10, 11, 12]
  {
    ShortLastSignature(n, s, 1, 8, 4);
    FourPagesAfter(8);
    FirstEightPages(n, s);
    Joined(Order(n, s), 8, [8, 1, 7, 2, 6, 3, 5, 4], [9, 10, 11, 12]);
  }

  /** A lone signature of any even size starts with its last page and then its first. */
  lemma LoneSignatureStarts(s: nat)
    requires s > 0 && s % 2 == 0
    ensures |Order(s, s)| == s && Order(s, s)[0] == s && Order(s, s)[1] == 1
  {
    OrderListsEveryPageOnce(s, s);
    SheetPairing(s, s, 0, 0, 0);
  }

  /** A lone signature of any even size ends with the two middle pages, the later one first. */
  lemma LoneSignatureEnds(s: nat, h: nat)
    requires s > 0 && s % 2 == 0 && h == s / 2
    ensures |Order(s, s)| == s && Order(s, s)[s - 2] == h + 1 && Order(s, s)[s - 1] == h
  {
    OrderListsEveryPageOnce(s, s);
    SheetPairing(s, s, 0, 0, h - 1);
  }

  /** Forty pages in one signature: the outer sheet carries 40 and 1, the innermost 21 and 20. */
  lemma FortyPagesInForty(n: nat)
    requires n == 40
    ensures |Order(n, n)| == 40
    ensures Order(n, n)[0] == 40 && Order(n, n)[1] == 1 && Order(n, n)[38] == 21 && Order(n, n)[39] == 20
  {
    LoneSignatureStarts(n);
    LoneSignatureEnds(n, 20);
  }

  /** The two pages after `a`, in reading order. */
  lemma TwoPagesAfter(a: nat)
    ensures PagesAfter(a, 2) == [a + 1, a + 2]
  {
  }

  /** The four pages after `a`, in reading order. */
  lemma FourPagesAfter(a: nat)
    ensures PagesAfter(a, 4) == [a + 1, a + 2, a + 3, a + 4]
  {
  }

  /** A sequence is the concatenation of its two pieces either side of `m`. */
  lemma Joined(o: seq<nat>, m: nat, a: seq<nat>, b: seq<nat>)
    requires m <= |o| && o[..m] == a && o[m..] == b
    ensures o == a + b
  {
    assert o == o[..m] + o[m..];
  }

  /** A sequence equals its prefix of its own length. */
  lemma Whole(o: seq<nat>, m: nat)
    requires m == |o|
    ensures o[..m] == o
  {
  }

  /** A sequence of length `m2` is the concatenation of its pieces either side of `m1`. */
  lemma JoinedWhole(o: seq<nat>, m1: nat, m2: nat, a: seq<nat>, b: seq<nat>)
    requires m1 <= m2 == |o| && o[..m1] == a && o[m1..m2] == b
    ensures o == a + b
  {
    Joined(o, m1, a, b);
  }

  /** A sequence is the concatenation of its three pieces cut at `m1` and `m2`. */
  lemma Joined3(o: seq<nat>, m1: nat, m2: nat, a: seq<nat>, b: seq<nat>, c: seq<nat>)
    requires m1 <= m2 <= |o| && o[m1..m2] == b && o[m2..] == c
    requires o[..m1] == a
    ensures o == a + b + c
  {
    assert o[m1..] == o[m1..m2] + o[m2..];
    Joined(o, m1, a, b + c);
  }
}

=== FILE: wrappers.dfy ===
/** Failure-carrying datatypes shared by the whole model. */
module Wrappers {

  /** A value that may be missing; in the page list `None` is a blank padding slot. */
  datatype Option<+T> = None | Some(value: T)

  /** The outcome of an operation that either returns a value or raises an error. */
  datatype Result<+T, +E> = Success(value: T) | Failure(error: E)
}
